=== FILE: README.md ===
# Master's-programme advisor bot — a Dafny model

The bot helps an applicant choose between two master's programmes:
"Artificial Intelligence" (the AI plan) and "AI Product" (the product plan).
The applicant presses "begin" and describes their background in free text.
The bot then:

- lower-cases the text;
- counts how many entries of two fixed keyword lists occur in it (24 AI and
  26 product keywords);
- chooses the track with the higher count, or asks for more detail on a tie;
- recommends at most five elective courses of the chosen plan whose names
  share a keyword with the text.

The applicant can then browse either plan semester by semester.

This project models that logic in `bot/main.py`. Each piece has its own module:

| file | module | what it holds |
|---|---|---|
| `basics.dfy` | `Basics` | `Option`, subsequences, a list-comprehension `Filter`, a prefix `Take` and an early-stopping filter, with their lemmas |
| `text.dfy` | `Text` | Python's `in` on strings, `str.lower`, `str.startswith`, `str.split` (with `join` as its inverse), `int(...)` and `str(n)` |
| `keywords.dfy` | `Keywords` | the two keyword lists, verbatim and in source order |
| `classifier.dfy` | `Classifier` | keyword scores and the track decision |
| `curriculum.dfy` | `Curriculum` | course records, the two plans, plan selection, and the semester listing |
| `matcher.dfy` | `Matcher` | the elective recommendation and its top-five cut, as a function and as the source's loops |
| `callbacks.dfy` | `Callbacks` | the inline-button callback data: how it is built, how it is routed to a handler, and how it is parsed back |
| `conversation.dfy` | `Conversation` | the per-chat state (stage plus data map), the five handlers as one transition function `Handle`, event sequences (`Run`), and the store of one context per user and chat |
| `scenarios.dfy` | `Scenarios` | the worked examples, proved on concrete texts |

The state of a conversation is the aiogram FSM context, which aiogram's default
storage strategy keeps per user in each chat:

- a stage: `Idle`, meaning no state, or `AwaitingBackground` for
  `UserState.background`;
- a string map, `data`, whose only key is `chosen_plan`.

The plans and the incoming events are parameters of the model. Replies keep
only their content and the callback data of their buttons.

## Model

| member | source | states |
|---|---|---|
| Basics.Filter | bot/main.py:114-115 | a list comprehension `[c for c in plan if cond]` keeps, in order, exactly the elements that satisfy the condition |
| Basics.FilterPartition | bot/main.py:114-115 | two conditions that never hold together, and that between them cover a third, split the third's selection with nothing lost or duplicated (as multisets) |
| Basics.FilterUpToIsTake | bot/main.py:82-84 | stopping once `limit` elements have been collected gives the same list as collecting all of them and slicing `[:limit]` |
| Text.LowerIdempotent | bot/main.py:45 | lower-casing twice is the same as lower-casing once |
| Text.LowerKeepsOccurrence | bot/main.py:45-59 | every occurrence of a word in a text is still an occurrence after both are lower-cased |
| Text.JoinSplit | bot/main.py:100 | joining the fields of `s.split(sep)` with `sep` gives back `s` |
| Text.SplitJoin | bot/main.py:100 | splitting a join of separator-free fields gives back exactly those fields |
| Text.ParseIntNatToString | bot/main.py:103-112 | `int(str(n)) == n` for every non-negative `n` |
| Keywords.KeywordCounts | bot/main.py:47-56 | the AI list has 24 entries and the product list 26 |
| Keywords.KeywordsStartVisible | bot/main.py:47-56 | every keyword is non-empty and starts with a non-blank character |
| Classifier.Present | bot/main.py:58-59 | the keywords counted are a subsequence of the list, and a keyword is counted iff it is in the list and occurs in the text |
| Classifier.Score | bot/main.py:58-59 | a score never exceeds the length of its list, and is 0 iff no entry of the list occurs in the text |
| Classifier.ScoreCountsEntries | bot/main.py:58-59 | the score is the number of list positions whose keyword occurs in the text, however often it occurs |
| Classifier.ScoreDependsOnlyOnPresence | bot/main.py:58-59 | two texts in which the same keywords occur get the same score |
| Classifier.ScoreMonotone | bot/main.py:58-59 | a text in which at least the keywords of another occur scores at least as high |
| Classifier.Classify | bot/main.py:45-71 | each score is the number of entries of its list (24 AI, 26 product) that occur in the lower-cased text; the verdict is AI iff the AI score is strictly higher, product iff the product score is strictly higher, and undetermined iff they are equal |
| Classifier.NoKeywordUndetermined | bot/main.py:58-71 | when no keyword of either list occurs in the lower-cased text, the scores are 0 and 0 and no track is chosen |
| Classifier.BlankTextUndetermined | bot/main.py:45-71 | an empty message, or one made only of characters Python's `str.isspace` accepts, never picks a track |
| Classifier.ClassifyIgnoresCase | bot/main.py:45 | classifying a lower-cased text gives the same result as classifying the original |
| Curriculum.CoursesBySemester | bot/main.py:114-115 | both lists keep plan order; the obligatory list holds exactly the plan's mandatory courses of that semester and the elective list exactly its elective ones; no course is in both; together they hold exactly that semester's courses with a known tag; each list is as long as the number of plan positions holding a course of its kind, so a course listed twice in the plan appears twice |
| Curriculum.PartitionCountsSemester | bot/main.py:114-115 | counted with multiplicity, the two lists together are exactly that semester's courses with a known tag |
| Matcher.ElectiveMatches | bot/main.py:74-79 | the matches are a subsequence of the plan, and a course matches iff it is in the plan, is elective, and its lower-cased name contains a keyword of either list that also occurs in the text |
| Matcher.MatchElectives | bot/main.py:74-79 | the loop over the plan collects exactly the matches, in plan order |
| Matcher.MentionsPresentKeyword | bot/main.py:78 | the `any(...)` scan over a keyword list, stopping at the first hit, answers true iff some keyword of the list occurs both in the text and in the name |
| Matcher.Recommended | bot/main.py:82-85 | at most five courses are shown; they are the first `min(5, matches)` matches, in order; every one is an elective of the plan whose name shares a keyword with the text |
| Matcher.EarlyStopAgrees | bot/main.py:74-84 | collecting matches only until five have been found shows the same courses as collecting all of them and slicing `[:5]` |
| Matcher.UnmentionedKeywordsNeverMatch | bot/main.py:78 | a course is never matched because of a keyword the applicant did not mention |
| Matcher.MatchesDependOnlyOnPresentKeywords | bot/main.py:74-79 | two texts that mention the same keywords get the same matches |
| Matcher.MoreKeywordsMoreMatches | bot/main.py:74-79 | a text that mentions more keywords keeps every match of the poorer text, in order |
| Callbacks.SemesterMenu | bot/main.py:102-107 | the menu has five buttons; the button for semester `i` (1 to 4) reaches the course-list handler, which parses back exactly `i`; the last button reaches the "begin" handler |
| Callbacks.ShowSemestersRoundTrip | bot/main.py:91-100 | `show_semesters_<plan_type>` reaches the semester-menu handler, which reads back the same plan type whenever it has no underscore |
| Callbacks.SemRoundTrip | bot/main.py:103-112 | `sem_<n>` reaches the course-list handler, which parses back the same `n` |
| Conversation.StartResets | bot/main.py:28-30 | `/start` clears the stage and the data from any state and offers "begin"; sending it twice leaves the same state as sending it once |
| Conversation.StartCommandForms | bot/main.py:28 | `/start` counts as the command after any leading whitespace, alone or followed by any whitespace character and a payload |
| Conversation.BeginAwaitsBackground | bot/main.py:36-38 | "begin" enters the background stage and keeps the data |
| Conversation.TextOutsideBackgroundIgnored | bot/main.py:43 | outside the background stage, text other than `/start` reaches no handler and changes nothing |
| Conversation.UndeterminedKeepsState | bot/main.py:69-71 | on a tie, the state is left exactly as it was: still in the background stage, with the data untouched |
| Conversation.ClassifiedCommitsTrack | bot/main.py:61-96 | a decided text clears the stage and replaces the whole data map with `chosen_plan = <track>`. It recommends the first matches of that track's plan, at most five, and offers that track's semester menu and "begin" |
| Conversation.ShowSemestersRecordsPlan | bot/main.py:98-101 | a `show_semesters_...` button overwrites `chosen_plan` with the text after the last underscore and keeps the stage and the other data |
| Conversation.MenuButtonRecordsItsPlan | bot/main.py:98-101 | pressing `show_semesters_<p>` for an underscore-free `p` records exactly `p` and shows the semester menu |
| Conversation.TrackPlanIsPlanFor | bot/main.py:61-111 | the plan a track recommends from (lines 63, 67) is the plan its recorded plan type selects for browsing (line 111) |
| Conversation.CoursesFollowChosenPlan | bot/main.py:107-115 | `sem_<n>` lists semester `n` of the AI plan when no plan is recorded or the recorded one is "ai", and of the product plan otherwise; the state is unchanged |
| Conversation.MenuRouted | bot/main.py:102-107 | every button of the semester menu is routed to a handler |
| Conversation.OfferedButtonsAreHandled | bot/main.py:90-107 | every button in every reply is routed to a handler |
| Conversation.RecordedTrackBrowsing | bot/main.py:98-115 | from the context a decided background leaves, the semester-menu button and then `sem_<n>` list semester `n` of that track's plan |
| Conversation.BrowsingFollowsClassification | bot/main.py:91-115 | after a decided background, pressing the offered semester-menu button and then `sem_<n>` lists semester `n` of the plan the recommendation came from |
| Conversation.RunKeepsDataShape | bot/main.py:95-101 | over any sequence of events, the data map never holds a key other than `chosen_plan` |
| Conversation.Deliver | bot/main.py:16-18 | an event from one user in one chat replaces that context (a new key starts fresh) and leaves every other context untouched |
| Scenarios.ScenarioAiBackground | bot/main.py:45-96 | "я изучал python, pandas и нейросети" scores 2 to 0 for AI and leaves only `chosen_plan = "ai"` |
| Scenarios.ScenarioProductBackground | bot/main.py:45-96 | "работал с Tableau, делал A/B тесты и считал conversion" scores 0 to 3 for product and leaves only `chosen_plan = "product"` |
| Scenarios.ScenarioUndeterminedBackground | bot/main.py:45-71 | "люблю котов" scores 0 to 0 and leaves the state exactly as it was |
| Scenarios.ScenarioSemesterListing | bot/main.py:114-115 | a mandatory and an elective course of semester 1 land in the obligatory and the elective list respectively |
| Scenarios.ScenarioNoPlanRecorded | bot/main.py:109-115 | `sem_1` in a fresh context lists semester 1 of the AI plan |

### Behaviour worth knowing

- **Missing plan choice.** A semester button pressed before any plan was
  recorded lists the AI plan, because `user_data.get("chosen_plan", "ai")`
  defaults to "ai" (`Scenarios.ScenarioNoPlanRecorded`).
- **Plan selection.** Any recorded plan type other than "ai" selects the
  product plan. The type is whatever follows the last underscore of the
  callback data, so it need not be one of the two tracks.
- **Stages.** The FSM state is either empty or `UserState.background`.
  Choosing a plan for browsing only writes `chosen_plan`.
- **Semester numbers.** Any integer the callback data parses to is listed,
  including 0 and negative numbers, usually as an empty listing.

## Left out

- **Transport.** The aiogram transport is not modelled: `Bot`, the
  dispatcher's polling loop, `main`, `answer`/`edit_text`, and the failures
  of those calls. Sending is assumed to succeed. In the source, a failed
  `message.answer` at line 94 would skip the state update that follows it.
- **Loading the plans.** The plans are read unchanged from JSON files at
  start-up (lines 20-26), which is file I/O. Here they are the parameter
  `plans`.
- Course.semester: holds what `int(c["semester"])` yields in the listing
  comprehensions (lines 114-115), not the raw JSON value. So the model does
  not show `int` truncating a fractional semester (1.9 is listed in
  semester 1), converting a string semester such as "1", or raising
  `ValueError` on a non-numeric semester inside `show_courses`. Nor does it
  show the raw value that the recommendation text prints at line 85.
- **Plan records.** Every plan record is assumed to have `name`, `type`,
  `credits` and `semester`. The source's `course.get(...)` defaults for a
  missing name or type are not modelled, and neither is the `KeyError` a
  record without `semester` raises in `show_courses`.
- **Message text.** The texts of the replies, their emoji and their Markdown
  rendering (lines 81-88, 117-123) are not modelled. Each reply keeps only
  the facts it reports and its buttons' callback data.
- **Non-text messages.** A message without text (a sticker, say) in the
  background stage makes `message.text.lower()` raise. Only text messages
  are modelled.
- **Concurrency.** The storage's handling of several updates at once is not
  modelled. The events of one context are handled one after another.
- Text.Lower: maps only A-Z, А-Я and Ѐ-Џ to lower case. All other
  characters are left unchanged, which is narrower than Python's full
  Unicode `str.lower` (for example Greek, or the dotted capital İ that
  lower-cases to two characters).
- Text.ParseInt: accepts only an optional sign followed by ASCII digits,
  and gives `None` elsewhere. Python's `int` also accepts surrounding
  whitespace, underscores between digits, and non-ASCII decimal digits.
  In the model, a callback whose number does not parse leaves the state
  unchanged and yields `HandlerFailed`, which stands for the exception the
  dispatcher logs.
- Conversation.IsStartCommand: takes the first whitespace-separated word
  and requires it to be `/start`. It does not model the `/start@botname`
  form that aiogram's `CommandStart` also accepts, nor commands sent as the
  caption of a media message.

=== FILE: basics.dfy ===
/** Small sequence vocabulary shared by the rest of the model: an optional
    value, the subsequence relation, and an order-preserving filter (the
    shape of every Python list comprehension with an `if` in the bot). */
module Basics {

  datatype Option<T> = None | Some(value: T)

  function Min(a: int, b: int): int
  {
    if a <= b then a else b
  }

  /** `a` is obtained from `b` by deleting elements: the elements of `a`
      occur in `b` in the same relative order. */
  predicate IsSubseq<T(==)>(a: seq<T>, b: seq<T>)
    decreases |b|
  {
    if |a| == 0 then true
    else if |b| == 0 then false
    else (a[0] == b[0] && IsSubseq(a[1..], b[1..])) || IsSubseq(a, b[1..])
  }

  /** The elements of `s` that satisfy `p`, in the order of `s`. */
  function Filter<T(==)>(s: seq<T>, p: T -> bool): (r: seq<T>)
    ensures |r| <= |s|
    ensures IsSubseq(r, s)
    ensures forall i :: 0 <= i < |r| ==> r[i] in s && p(r[i])
    ensures forall i :: 0 <= i < |s| && p(s[i]) ==> s[i] in r
    decreases |s|
  {
    if |s| == 0 then []
    else if p(s[0]) then [s[0]] + Filter(s[1..], p)
    else Filter(s[1..], p)
  }

  /** Filtering distributes over concatenation, which is what lets a loop
      build the filtered list one element at a time. */
  lemma {:induction false} FilterAppend<T>(a: seq<T>, b: seq<T>, p: T -> bool)
    ensures Filter(a + b, p) == Filter(a, p) + Filter(b, p)
    decreases |a|
  {
    if |a| == 0 {
      assert a + b == b;
    } else {
      assert (a + b)[1..] == a[1..] + b;
      FilterAppend(a[1..], b, p);
    }
  }

  /** The filter only looks at `p` on elements of `s`. */
  lemma {:induction false} FilterCongruent<T>(s: seq<T>, p: T -> bool, q: T -> bool)
    requires forall i :: 0 <= i < |s| ==> p(s[i]) == q(s[i])
    ensures Filter(s, p) == Filter(s, q)
    decreases |s|
  {
    if |s| > 0 {
      FilterCongruent(s[1..], p, q);
    }
  }

  /** A filter that accepts more elements keeps at least as many. */
  lemma {:induction false} FilterMonotone<T>(s: seq<T>, p: T -> bool, q: T -> bool)
    requires forall i :: 0 <= i < |s| ==> p(s[i]) ==> q(s[i])
    ensures |Filter(s, p)| <= |Filter(s, q)|
    decreases |s|
  {
    if |s| > 0 {
      FilterMonotone(s[1..], p, q);
    }
  }

  /** The positions of `s` whose element satisfies `p`. */
  function Positions<T>(s: seq<T>, p: T -> bool): set<int>
  {
    set i | 0 <= i < |s| && p(s[i])
  }

  /** Filtering one more element of `s` appends it when it passes. */
  lemma FilterSnoc<T>(s: seq<T>, i: nat, p: T -> bool)
    requires i < |s|
    ensures Filter(s[..i + 1], p) == Filter(s[..i], p) + if p(s[i]) then [s[i]] else []
  {
    assert s[..i + 1] == s[..i] + [s[i]];
    FilterAppend(s[..i], [s[i]], p);
    assert Filter([s[i]], p) == if p(s[i]) then [s[i]] else [];
  }

  /** Extending a sequence at the end adds its last position, when it passes. */
  lemma PositionsSnoc<T>(s: seq<T>, p: T -> bool)
    requires |s| > 0
    ensures Positions(s, p) == Positions(s[..|s| - 1], p) + if p(s[|s| - 1]) then {|s| - 1} else {}
  {
    var n := |s| - 1;
    assert forall i :: 0 <= i < n ==> s[..n][i] == s[i];
  }

  /** The length of a filter is the number of positions that pass it. */
  lemma {:induction false} FilterLengthCountsPositions<T>(s: seq<T>, p: T -> bool)
    ensures |Filter(s, p)| == |Positions(s, p)|
    decreases |s|
  {
    if |s| == 0 {
      assert Positions(s, p) == {};
    } else {
      var n := |s| - 1;
      var init := s[..n];
      assert s == init + [s[n]];
      FilterAppend(init, [s[n]], p);
      FilterLengthCountsPositions(init, p);
      assert Filter([s[n]], p) == if p(s[n]) then [s[n]] else [];
      PositionsSnoc(s, p);
      assert n !in Positions(init, p);
    }
  }

  /** Two filters that never both accept an element split a third one that
      accepts exactly what either accepts: same elements, same multiplicities. */
  lemma {:induction false} FilterPartition<T>(s: seq<T>, p: T -> bool, q: T -> bool, both: T -> bool)
    requires forall x :: !(p(x) && q(x))
    requires forall x :: both(x) == (p(x) || q(x))
    ensures multiset(Filter(s, p)) + multiset(Filter(s, q)) == multiset(Filter(s, both))
    decreases |s|
  {
    if |s| > 0 {
      FilterPartition(s[1..], p, q, both);
    }
  }

  /** The first `n` elements, or all of them when there are fewer. */
  function Take<T>(s: seq<T>, n: nat): (r: seq<T>)
    ensures |r| == Min(n, |s|)
    ensures forall i :: 0 <= i < |r| ==> r[i] == s[i]
  {
    if n <= |s| then s[..n] else s
  }

  lemma {:induction false} PrefixIsSubseq<T>(s: seq<T>, n: nat)
    requires n <= |s|
    ensures IsSubseq(s[..n], s)
    decreases |s|
  {
    if n > 0 {
      assert s[..n][1..] == s[1..][..n - 1];
      PrefixIsSubseq(s[1..], n - 1);
    }
  }

  lemma {:induction false} SubseqTransitive<T>(a: seq<T>, b: seq<T>, c: seq<T>)
    requires IsSubseq(a, b) && IsSubseq(b, c)
    ensures IsSubseq(a, c)
    decreases |c|
  {
    if |a| > 0 {
      if IsSubseq(b, c[1..]) {
        SubseqTransitive(a, b, c[1..]);
      } else if a[0] == b[0] && IsSubseq(a[1..], b[1..]) {
        SubseqTransitive(a[1..], b[1..], c[1..]);
      } else {
        SubseqTransitive(a, b[1..], c[1..]);
      }
    }
  }

  /** A filter that stops once `limit` elements have been kept. */
  function FilterUpTo<T>(s: seq<T>, p: T -> bool, limit: nat): seq<T>
    decreases |s|
  {
    if limit == 0 || |s| == 0 then []
    else if p(s[0]) then [s[0]] + FilterUpTo(s[1..], p, limit - 1)
    else FilterUpTo(s[1..], p, limit)
  }

  /** Stopping early gives the same list as filtering everything and then
      keeping the first `limit`. */
  lemma {:induction false} FilterUpToIsTake<T>(s: seq<T>, p: T -> bool, limit: nat)
    ensures FilterUpTo(s, p, limit) == Take(Filter(s, p), limit)
    decreases |s|
  {
    if limit > 0 && |s| > 0 {
      FilterUpToIsTake(s[1..], p, if p(s[0]) then limit - 1 else limit);
      if p(s[0]) {
        var rest := Filter(s[1..], p);
        assert Take([s[0]] + rest, limit) == [s[0]] + Take(rest, limit - 1);
      }
    }
  }

  /** Filtering with a weaker condition keeps a supersequence. */
  lemma {:induction false} FilterWeakerIsSupersequence<T>(s: seq<T>, p: T -> bool, q: T -> bool)
    requires forall i :: 0 <= i < |s| ==> p(s[i]) ==> q(s[i])
    ensures IsSubseq(Filter(s, p), Filter(s, q))
    decreases |s|
  {
    if |s| > 0 {
      FilterWeakerIsSupersequence(s[1..], p, q);
      var a := Filter(s[1..], p);
      var b := Filter(s[1..], q);
      if p(s[0]) {
        assert ([s[0]] + a)[1..] == a;
        assert ([s[0]] + b)[1..] == b;
      } else if q(s[0]) {
        assert ([s[0]] + b)[1..] == b;
        SubseqSkipHead(a, s[0], b);
      }
    }
  }

  lemma SubseqSkipHead<T>(a: seq<T>, x: T, b: seq<T>)
    requires IsSubseq(a, b)
    ensures IsSubseq(a, [x] + b)
  {
    assert ([x] + b)[1..] == b;
  }
}

=== FILE: callbacks.dfy ===
/** Callback data of the inline buttons: how the bot builds it, how the
    dispatcher routes it, and how the handlers read it back
    (bot/main.py:36, 91, 98-100, 103, 107, 112, 126). */
module Callbacks {
  import opened Basics
  import opened Text

  const Begin: string := "begin"
  const ShowSemestersPrefix: string := "show_semesters_"
  const SemPrefix: string := "sem_"

  /** The semester menu offers `range(1, 5)`. */
  const MenuSemesters: nat := 4

  /** `f"show_semesters_{plan_type}"`. */
  function ShowSemestersData(planType: string): string
  {
    ShowSemestersPrefix + planType
  }

  /** `f"sem_{i}"`. */
  function SemData(n: nat): string
  {
    SemPrefix + NatToString(n)
  }

  /** The buttons of the semester menu: one per semester, then "begin".
      Each semester button opens the listing of its own semester, and the
      last one returns to the start of the selection. */
  function SemesterMenu(): (buttons: seq<string>)
    ensures |buttons| == MenuSemesters + 1
    ensures forall i :: 0 <= i < MenuSemesters ==> buttons[i] == SemData(i + 1)
    ensures forall i :: 0 <= i < MenuSemesters ==>
              RouteOf(buttons[i]) == ToSem && ParseSemester(buttons[i]) == Some(i + 1)
    ensures RouteOf(buttons[MenuSemesters]) == ToBegin
  {
    var buttons := seq(MenuSemesters, i requires 0 <= i < MenuSemesters => SemData(i + 1)) + [Begin];
    assert forall i | 0 <= i < MenuSemesters ::
             RouteOf(buttons[i]) == ToSem && ParseSemester(buttons[i]) == Some(i + 1) by {
      forall i | 0 <= i < MenuSemesters
        ensures RouteOf(buttons[i]) == ToSem && ParseSemester(buttons[i]) == Some(i + 1)
      {
        SemRoundTrip(i + 1);
      }
    }
    buttons
  }

  /** Which callback handler receives the data; the dispatcher tries the
      handlers in registration order and drops data none accepts. */
  datatype Route = ToBegin | ToShowSemesters | ToSem | Unrouted

  function RouteOf(data: string): Route
  {
    if data == Begin then ToBegin
    else if StartsWith(data, ShowSemestersPrefix) then ToShowSemesters
    else if StartsWith(data, SemPrefix) then ToSem
    else Unrouted
  }

  /** `callback.data.split("_")[-1]`. */
  function PlanTypeOf(data: string): string
  {
    Last(Split(data, '_'))
  }

  /** `int(callback.data.split("_")[1])`; `None` where Python raises. */
  function ParseSemester(data: string): Option<int>
  {
    var fields := Split(data, '_');
    if |fields| < 2 then None else ParseInt(fields[1])
  }

  /** Every `show_semesters_...` button reaches the semester-menu handler. */
  lemma ShowSemestersRouted(p: string)
    ensures RouteOf(ShowSemestersData(p)) == ToShowSemesters
  {
    assert ShowSemestersData(p)[..|ShowSemestersPrefix|] == ShowSemestersPrefix;
    assert ShowSemestersData(p)[0] != Begin[0];
  }

  /** A `show_semesters_<plan_type>` button reaches the semester-menu
      handler, which reads back exactly the plan type it was built from,
      provided the plan type has no underscore. */
  lemma ShowSemestersRoundTrip(planType: string)
    requires '_' !in planType
    ensures RouteOf(ShowSemestersData(planType)) == ToShowSemesters
    ensures PlanTypeOf(ShowSemestersData(planType)) == planType
  {
    var data := ShowSemestersData(planType);
    ShowSemestersRouted(planType);
    var parts := ["show", "semesters", planType];
    assert parts[1..] == ["semesters", planType] && ["semesters", planType][1..] == [planType];
    assert Join(["semesters", planType], '_') == "semesters" + ['_'] + planType;
    assert Join(parts, '_') == "show" + ['_'] + Join(["semesters", planType], '_');
    assert data == Join(parts, '_');
    SplitJoin(parts, '_');
  }

  /** A `sem_<n>` button reaches the course-list handler, which parses
      back exactly `n`. */
  lemma SemRoundTrip(n: nat)
    ensures RouteOf(SemData(n)) == ToSem
    ensures ParseSemester(SemData(n)) == Some(n)
  {
    var digits := NatToString(n);
    var data := SemData(n);
    assert data[0] != Begin[0];
    assert data[1] != ShowSemestersPrefix[1];
    assert data[..|SemPrefix|] == SemPrefix;
    assert forall i :: 0 <= i < |digits| ==> digits[i] != '_';
    var parts := ["sem", digits];
    assert parts[1..] == [digits];
    assert data == Join(parts, '_');
    SplitJoin(parts, '_');
    ParseIntNatToString(n);
  }
}

=== FILE: classifier.dfy ===
/** Keyword scoring of the user's self-description and the track decision
    of `process_background` (bot/main.py:45-71). */
module Classifier {
  import opened Basics
  import opened Text
  import opened Keywords

  datatype Track = AI | Product

  /** The `plan_type` string the bot stores under `chosen_plan` and puts
      into the `show_semesters_<plan_type>` callback data. */
  function PlanType(t: Track): string
  {
    match t
    case AI => "ai"
    case Product => "product"
  }

  /** A plan type survives `split("_")` as a single field. */
  lemma PlanTypeHasNoUnderscore(t: Track)
    ensures '_' !in PlanType(t)
  {
    var s := PlanType(t);
    forall i | 0 <= i < |s|
      ensures s[i] != '_'
    {
      if t == AI {
        assert i in {0, 1};
      } else {
        assert i in {0, 1, 2, 3, 4, 5, 6};
      }
    }
  }

  /** `lambda word: word in text`. */
  function Mentions(text: string): string -> bool
  {
    k => Contains(text, k)
  }

  /** The entries of `keywords` that occur in `text`, in list order. */
  function Present(keywords: seq<string>, text: string): (r: seq<string>)
    ensures IsSubseq(r, keywords)
    ensures forall k :: k in r <==> k in keywords && Contains(text, k)
  {
    Filter(keywords, Mentions(text))
  }

  /** `sum(1 for word in keywords if word in text)`. */
  function Score(keywords: seq<string>, text: string): (n: nat)
    ensures n <= |keywords|
    ensures n == 0 <==> forall k :: k in keywords ==> !Contains(text, k)
  {
    |Present(keywords, text)|
  }

  /** The score counts list entries (positions), one per entry that occurs
      in the text, however often it occurs there. */
  lemma ScoreCountsEntries(keywords: seq<string>, text: string)
    ensures Score(keywords, text) == |set i | 0 <= i < |keywords| && Contains(text, keywords[i])|
  {
    FilterLengthCountsPositions(keywords, Mentions(text));
    assert Positions(keywords, Mentions(text)) == set i | 0 <= i < |keywords| && Contains(text, keywords[i]);
  }

  /** Only which keywords occur matters: two texts in which the same
      keywords occur score the same, so repeating a keyword adds nothing. */
  lemma ScoreDependsOnlyOnPresence(keywords: seq<string>, t1: string, t2: string)
    requires forall k :: k in keywords ==> (Contains(t1, k) <==> Contains(t2, k))
    ensures Score(keywords, t1) == Score(keywords, t2)
  {
    FilterCongruent(keywords, Mentions(t1), Mentions(t2));
  }

  /** A text in which at least the keywords of another occur scores at
      least as high. */
  lemma ScoreMonotone(keywords: seq<string>, t1: string, t2: string)
    requires forall k :: k in keywords ==> Contains(t1, k) ==> Contains(t2, k)
    ensures Score(keywords, t1) <= Score(keywords, t2)
  {
    FilterMonotone(keywords, Mentions(t1), Mentions(t2));
  }

  datatype Verdict = Chosen(track: Track) | Undetermined

  datatype Classification = Classification(aiScore: nat, productScore: nat, verdict: Verdict)

  /** The `if / elif / else` of bot/main.py:61-71. */
  function Decide(aiScore: nat, productScore: nat): Verdict
  {
    if aiScore > productScore then Chosen(AI)
    else if productScore > aiScore then Chosen(Product)
    else Undetermined
  }

  /** Lower-case the text, score it against both lists, decide: each score
      is the number of list entries occurring in the lower-cased text. */
  function Classify(text: string): (r: Classification)
    ensures r.aiScore <= 24 && r.productScore <= 26
    ensures r.verdict == Chosen(AI) <==> r.aiScore > r.productScore
    ensures r.verdict == Chosen(Product) <==> r.productScore > r.aiScore
    ensures r.verdict == Undetermined <==> r.aiScore == r.productScore
    ensures r.aiScore == |set i | 0 <= i < |AiKeywords| && Contains(Lower(text), AiKeywords[i])|
    ensures r.productScore == |set i | 0 <= i < |ProductKeywords| && Contains(Lower(text), ProductKeywords[i])|
  {
    KeywordCounts();
    ScoreCountsEntries(AiKeywords, Lower(text));
    ScoreCountsEntries(ProductKeywords, Lower(text));
    var lowered := Lower(text);
    var ai := Score(AiKeywords, lowered);
    var product := Score(ProductKeywords, lowered);
    Classification(ai, product, Decide(ai, product))
  }

  /** A text in which no keyword of either list occurs scores 0 to 0 and
      is not classified. */
  lemma NoKeywordUndetermined(text: string)
    requires forall k :: k in AllKeywords ==> !Contains(Lower(text), k)
    ensures Classify(text) == Classification(0, 0, Undetermined)
  {
  }

  /** An empty or whitespace-only text is never classified: every keyword
      starts with a visible character, which such a text lacks. */
  lemma BlankTextUndetermined(text: string)
    requires forall i :: 0 <= i < |text| ==> IsSpace(text[i])
    ensures Classify(text) == Classification(0, 0, Undetermined)
  {
    var lowered := Lower(text);
    LowerShape(text);
    KeywordsStartVisible();
    forall k | k in AllKeywords
      ensures !Contains(lowered, k)
    {
      ForeignCharExcludes(lowered, k, 0);
    }
    NoKeywordUndetermined(text);
  }

  /** Classification ignores letter case: the text is lower-cased first. */
  lemma ClassifyIgnoresCase(text: string)
    ensures Classify(Lower(text)) == Classify(text)
  {
    LowerIdempotent(text);
  }
}

=== FILE: conversation.dfy ===
/** The conversation: the finite-state-machine context the handlers read
    and write (stage and data map), the five handlers as one transition
    function, and the storage that keeps one context per user and chat
    (bot/main.py:13-16, 28-30, 36-38, 43-71, 95-101, 107-115). */
module Conversation {
  import opened Basics
  import opened Text
  import opened Classifier
  import opened Curriculum
  import opened Matcher
  import opened Callbacks

  /** No state, or `UserState.background`. */
  datatype Stage = Idle | AwaitingBackground

  datatype State = State(stage: Stage, data: map<string, string>)

  /** The context of a chat never seen before, and the result of `state.clear()`. */
  const Fresh: State := State(Idle, map[])

  const ChosenPlanKey: string := "chosen_plan"

  /** `user_data.get("chosen_plan", "ai")`. */
  function ChosenPlan(data: map<string, string>): string
  {
    if ChosenPlanKey in data then data[ChosenPlanKey] else "ai"
  }

  /** The plan a classified track recommends from (bot/main.py:63, 67). */
  function TrackPlan(plans: Plans, t: Track): seq<Course>
  {
    match t
    case AI => plans.ai
    case Product => plans.product
  }

  /** The plan a track recommends from is the plan its recorded plan type
      later selects for browsing. */
  lemma TrackPlanIsPlanFor(plans: Plans, t: Track)
    ensures TrackPlan(plans, t) == PlanFor(plans, PlanType(t))
  {
    if t == Product {
      assert PlanType(t)[0] != "ai"[0];
    }
  }

  /** An incoming text message, or a press of an inline button carrying
      its callback data. */
  datatype Event = Message(text: string) | Press(data: string)

  /** What the bot answers, reduced to its content and the callback data
      of the buttons it offers. */
  datatype Reply =
    | Welcome(buttons: seq<string>)
    | AskBackground
    | AskMoreDetail
    | Recommendation(track: Track, electives: seq<Course>, buttons: seq<string>)
    | SemesterChoice(buttons: seq<string>)
    | CourseList(semester: int, listing: Listing, buttons: seq<string>)
    | HandlerFailed
    | Unhandled

  function Buttons(r: Reply): seq<string>
  {
    match r
    case Welcome(b) => b
    case Recommendation(_, _, b) => b
    case SemesterChoice(b) => b
    case CourseList(_, _, b) => b
    case _ => []
  }

  datatype Outcome = Outcome(state: State, reply: Reply)

  const StartCommand: string := "/start"

  /** `CommandStart()`: the first whitespace-separated word of the text is
      `/start`; whatever follows it is a payload. */
  predicate IsStartCommand(text: string)
  {
    var t := StripLeading(text);
    StartsWith(t, StartCommand) && (|t| == |StartCommand| || IsSpace(t[|StartCommand|]))
  }

  /** `process_background`: classify; when undetermined answer and return
      before touching the context; otherwise clear it and record the plan. */
  function ProcessBackground(s: State, text: string, plans: Plans): Outcome
  {
    var backgroundText := Lower(text);
    match Classify(text).verdict
    case Undetermined => Outcome(s, AskMoreDetail)
    case Chosen(t) =>
      var planType := PlanType(t);
      Outcome(State(Idle, map[ChosenPlanKey := planType]),
              Recommendation(t, Recommended(TrackPlan(plans, t), backgroundText),
                             [ShowSemestersData(planType), Begin]))
  }

  /** `show_courses`: reads the context, never writes it. */
  function ShowCourses(s: State, data: string, plans: Plans): Outcome
  {
    var planType := ChosenPlan(s.data);
    var plan := PlanFor(plans, planType);
    match ParseSemester(data)
    case None => Outcome(s, HandlerFailed)
    case Some(sem) =>
      Outcome(s, CourseList(sem, CoursesBySemester(plan, sem), [ShowSemestersData(planType), Begin]))
  }

  /** One event through the dispatcher: the `/start` handler matches in
      every stage, the background handler only in the background stage,
      and the callback handlers in every stage. */
  function Handle(s: State, e: Event, plans: Plans): Outcome
  {
    match e
    case Message(text) =>
      if IsStartCommand(text) then Outcome(Fresh, Welcome([Begin]))
      else if s.stage == AwaitingBackground then ProcessBackground(s, text, plans)
      else Outcome(s, Unhandled)
    case Press(data) =>
      match RouteOf(data)
      case ToBegin => Outcome(s.(stage := AwaitingBackground), AskBackground)
      case ToShowSemesters =>
        Outcome(s.(data := s.data[ChosenPlanKey := PlanTypeOf(data)]), SemesterChoice(SemesterMenu()))
      case ToSem => ShowCourses(s, data, plans)
      case Unrouted => Outcome(s, Unhandled)
  }

  /** The context after a sequence of events. */
  function Run(s: State, events: seq<Event>, plans: Plans): State
    decreases |events|
  {
    if |events| == 0 then s else Run(Handle(s, events[0], plans).state, events[1..], plans)
  }

  // ----- transitions -----

  /** `/start` clears stage and data from any context; doing it twice is
      the same as doing it once. */
  lemma StartResets(s: State, text: string, plans: Plans)
    requires IsStartCommand(text)
    ensures Handle(s, Message(text), plans) == Outcome(Fresh, Welcome([Begin]))
    ensures Run(s, [Message(text), Message(text)], plans) == Run(s, [Message(text)], plans)
  {
    assert [Message(text), Message(text)][1..] == [Message(text)];
  }

  /** `/start` may be preceded by whitespace and followed, after any
      whitespace character, by a payload. */
  lemma StartCommandForms(ws: string, sep: char, payload: string)
    requires forall i :: 0 <= i < |ws| ==> IsSpace(ws[i])
    requires IsSpace(sep)
    ensures IsStartCommand(ws + StartCommand)
    ensures IsStartCommand(ws + StartCommand + [sep] + payload)
  {
    StartedCommand(ws, StartCommand);
    StartWithPayload(ws, sep, payload);
  }

  lemma StartWithPayload(ws: string, sep: char, payload: string)
    requires forall i :: 0 <= i < |ws| ==> IsSpace(ws[i])
    requires IsSpace(sep)
    ensures IsStartCommand(ws + StartCommand + [sep] + payload)
  {
    var rest := StartCommand + [sep] + payload;
    assert rest[..|StartCommand|] == StartCommand;
    assert rest[|StartCommand|] == sep;
    StartedCommand(ws, rest);
    assert ws + StartCommand + [sep] + payload == ws + rest;
  }

  /** Text that is `/start` after leading whitespace, alone or followed by a
      whitespace character, is the command. */
  lemma StartedCommand(ws: string, rest: string)
    requires forall i :: 0 <= i < |ws| ==> IsSpace(ws[i])
    requires StartsWith(rest, StartCommand)
    requires |rest| == |StartCommand| || IsSpace(rest[|StartCommand|])
    ensures IsStartCommand(ws + rest)
  {
    assert rest[0] == StartCommand[0] == '/';
    StripLeadingSkips(ws, rest);
  }

  /** "begin" enters the background stage and keeps the data. */
  lemma BeginAwaitsBackground(s: State, plans: Plans)
    ensures Handle(s, Press(Begin), plans) == Outcome(State(AwaitingBackground, s.data), AskBackground)
  {
  }

  /** Outside the background stage, text other than `/start` has no
      handler and changes nothing. */
  lemma TextOutsideBackgroundIgnored(s: State, text: string, plans: Plans)
    requires s.stage == Idle && !IsStartCommand(text)
    ensures Handle(s, Message(text), plans) == Outcome(s, Unhandled)
  {
  }

  /** A tie leaves the context exactly as it was: still awaiting the
      background, the recorded plan untouched. */
  lemma UndeterminedKeepsState(s: State, text: string, plans: Plans)
    requires s.stage == AwaitingBackground && !IsStartCommand(text)
    requires Classify(text).aiScore == Classify(text).productScore
    ensures Handle(s, Message(text), plans) == Outcome(s, AskMoreDetail)
  {
  }

  /** A decided text clears the stage, replaces the whole data map by the
      chosen plan type, recommends at most five electives of that track's
      plan, and offers that track's semester menu. */
  lemma ClassifiedCommitsTrack(s: State, text: string, plans: Plans, t: Track)
    requires s.stage == AwaitingBackground && !IsStartCommand(text)
    requires Classify(text).verdict == Chosen(t)
    ensures Handle(s, Message(text), plans).state == State(Idle, map[ChosenPlanKey := PlanType(t)])
    ensures Handle(s, Message(text), plans).reply ==
            Recommendation(t, Recommended(TrackPlan(plans, t), Lower(text)), [ShowSemestersData(PlanType(t)), Begin])
    ensures |Handle(s, Message(text), plans).reply.electives| <= MaxShown
  {
  }

  /** A `show_semesters_...` button overwrites `chosen_plan` with the
      text after the last underscore and keeps the stage and other data. */
  lemma ShowSemestersRecordsPlan(s: State, data: string, plans: Plans)
    requires StartsWith(data, ShowSemestersPrefix)
    ensures Handle(s, Press(data), plans) ==
            Outcome(State(s.stage, s.data[ChosenPlanKey := PlanTypeOf(data)]), SemesterChoice(SemesterMenu()))
  {
    assert data != Begin by {
      assert data[0] != Begin[0];
    }
  }

  /** A `sem_<n>` button lists semester `n` of the AI plan when no plan
      was recorded or the recorded one is "ai", and of the product plan
      for every other recorded value; the context is not changed. */
  lemma CoursesFollowChosenPlan(s: State, n: nat, plans: Plans)
    ensures var plan := if ChosenPlanKey !in s.data || s.data[ChosenPlanKey] == "ai" then plans.ai else plans.product;
            Handle(s, Press(SemData(n)), plans) ==
            Outcome(s, CourseList(n, CoursesBySemester(plan, n), [ShowSemestersData(ChosenPlan(s.data)), Begin]))
  {
    SemRoundTrip(n);
  }

  /** Every button of the semester menu reaches a handler. */
  lemma MenuRouted()
    ensures forall b :: b in SemesterMenu() ==> RouteOf(b) != Unrouted
  {
    var menu := SemesterMenu();
    forall b | b in menu
      ensures RouteOf(b) != Unrouted
    {
      var i :| 0 <= i < |menu| && b == menu[i];
    }
  }

  /** Every button the bot offers reaches one of its handlers. */
  lemma OfferedButtonsAreHandled(s: State, e: Event, plans: Plans)
    ensures forall b :: b in Buttons(Handle(s, e, plans).reply) ==> RouteOf(b) != Unrouted
  {
    match e
    case Message(text) =>
      if !IsStartCommand(text) && s.stage == AwaitingBackground {
        match Classify(text).verdict
        case Undetermined =>
        case Chosen(t) => BackButtonsRouted(PlanType(t));
      }
    case Press(data) =>
      match RouteOf(data)
      case ToShowSemesters => MenuRouted();
      case ToSem => BackButtonsRouted(ChosenPlan(s.data));
      case _ =>
  }

  /** The pair of buttons under a recommendation and under a course list. */
  lemma BackButtonsRouted(p: string)
    ensures forall b :: b in [ShowSemestersData(p), Begin] ==> RouteOf(b) != Unrouted
  {
    ShowSemestersRouted(p);
  }

  /** The button `show_semesters_<p>` records exactly `p`, whenever `p`
      has no underscore. */
  lemma MenuButtonRecordsItsPlan(s: State, p: string, plans: Plans)
    requires '_' !in p
    ensures Handle(s, Press(ShowSemestersData(p)), plans) ==
            Outcome(s.(data := s.data[ChosenPlanKey := p]), SemesterChoice(SemesterMenu()))
  {
    var press := ShowSemestersData(p);
    ShowSemestersRoundTrip(p);
    assert press[..|ShowSemestersPrefix|] == ShowSemestersPrefix;
    ShowSemestersRecordsPlan(s, press, plans);
  }

  /** After a decided background, pressing the semester-menu button the
      recommendation offers and then a semester button lists that semester of exactly the
      plan the recommendation came from. */
  lemma BrowsingFollowsClassification(s: State, text: string, plans: Plans, t: Track, n: nat)
    requires s.stage == AwaitingBackground && !IsStartCommand(text)
    requires Classify(text).verdict == Chosen(t)
    ensures var s1 := Handle(s, Message(text), plans).state;
            var s2 := Handle(s1, Press(ShowSemestersData(PlanType(t))), plans).state;
            Handle(s2, Press(SemData(n)), plans).reply ==
            CourseList(n, CoursesBySemester(TrackPlan(plans, t), n), [ShowSemestersData(PlanType(t)), Begin])
  {
    ClassifiedCommitsTrack(s, text, plans, t);
    RecordedTrackBrowsing(t, plans, n);
  }

  /** From the context a decided background leaves, the semester-menu
      button and then `sem_<n>` list semester `n` of that track's plan. */
  lemma RecordedTrackBrowsing(t: Track, plans: Plans, n: nat)
    ensures var s1 := State(Idle, map[ChosenPlanKey := PlanType(t)]);
            var s2 := Handle(s1, Press(ShowSemestersData(PlanType(t))), plans).state;
            Handle(s2, Press(SemData(n)), plans).reply ==
            CourseList(n, CoursesBySemester(TrackPlan(plans, t), n), [ShowSemestersData(PlanType(t)), Begin])
  {
    var s1 := State(Idle, map[ChosenPlanKey := PlanType(t)]);
    PlanTypeHasNoUnderscore(t);
    MenuButtonRecordsItsPlan(s1, PlanType(t), plans);
    assert s1.data[ChosenPlanKey := PlanType(t)] == s1.data;
    CoursesFollowChosenPlan(s1, n, plans);
  }

  /** The data map never holds anything but `chosen_plan`. */
  predicate DataShape(s: State)
  {
    s.data.Keys <= {ChosenPlanKey}
  }

  lemma {:induction false} RunKeepsDataShape(s: State, events: seq<Event>, plans: Plans)
    requires DataShape(s)
    ensures DataShape(Run(s, events, plans))
    decreases |events|
  {
    if |events| > 0 {
      var next := Handle(s, events[0], plans).state;
      assert DataShape(next);
      RunKeepsDataShape(next, events[1..], plans);
    }
  }

  // ----- context storage -----

  /** The storage key of a context: with aiogram's default strategy, one
      context per user in each chat. */
  datatype ContextKey = ContextKey(chat: int, user: int)

  /** The context under a key; a key never seen starts fresh. */
  function ContextOf(store: map<ContextKey, State>, key: ContextKey): State
  {
    if key in store then store[key] else Fresh
  }

  /** Handling an event from one user in one chat replaces that context and
      no other. */
  function Deliver(store: map<ContextKey, State>, key: ContextKey, e: Event, plans: Plans): (r: map<ContextKey, State>)
    ensures r.Keys == store.Keys + {key}
    ensures forall other :: other in store && other != key ==> r[other] == store[other]
    ensures r[key] == Handle(ContextOf(store, key), e, plans).state
  {
    store[key := Handle(ContextOf(store, key), e, plans).state]
  }
}

=== FILE: curriculum.dfy ===
/** Course records, the two study plans, and the semester listing of
    `show_courses` (bot/main.py:109-115). */
module Curriculum {
  import opened Basics

  /** The two `type` tags of the plan files. Any other tag is carried
      through but falls outside both listings. */
  const MandatoryTag: string := "обязательная"
  const ElectiveTag: string := "выборная"

  /** One record of a plan file; `credits` is only ever displayed. */
  datatype Course = Course(name: string, ctype: string, credits: int, semester: int)

  /** `ai_plan` and `product_plan`, loaded once and never changed. */
  datatype Plans = Plans(ai: seq<Course>, product: seq<Course>)

  /** `ai_plan if plan_type == "ai" else product_plan`: every value other
      than `"ai"` selects the product plan. */
  function PlanFor(plans: Plans, planType: string): seq<Course>
  {
    if planType == "ai" then plans.ai else plans.product
  }

  function ObligatoryIn(sem: int): Course -> bool
  {
    (c: Course) => c.semester == sem && c.ctype == MandatoryTag
  }

  function ElectiveIn(sem: int): Course -> bool
  {
    (c: Course) => c.semester == sem && c.ctype == ElectiveTag
  }

  /** Courses of semester `sem` carrying one of the two known tags. */
  function ListedIn(sem: int): Course -> bool
  {
    (c: Course) => c.semester == sem && (c.ctype == MandatoryTag || c.ctype == ElectiveTag)
  }

  datatype Listing = Listing(obligatory: seq<Course>, elective: seq<Course>)

  /** The two list comprehensions of bot/main.py:114-115. Both lists keep
      plan order, hold only semester-`sem` courses, cannot share a course,
      together hold exactly the semester's courses with a known tag, and
      each is as long as the number of plan positions it selects. */
  function CoursesBySemester(plan: seq<Course>, sem: int): (r: Listing)
    ensures IsSubseq(r.obligatory, plan) && IsSubseq(r.elective, plan)
    ensures forall c :: c in r.obligatory <==> c in plan && c.semester == sem && c.ctype == MandatoryTag
    ensures forall c :: c in r.elective <==> c in plan && c.semester == sem && c.ctype == ElectiveTag
    ensures forall c :: !(c in r.obligatory && c in r.elective)
    ensures forall c :: c in r.obligatory || c in r.elective <==>
              c in plan && c.semester == sem && (c.ctype == MandatoryTag || c.ctype == ElectiveTag)
    ensures |r.obligatory| == |Positions(plan, ObligatoryIn(sem))|
    ensures |r.elective| == |Positions(plan, ElectiveIn(sem))|
  {
    FilterLengthCountsPositions(plan, ObligatoryIn(sem));
    FilterLengthCountsPositions(plan, ElectiveIn(sem));
    Listing(Filter(plan, ObligatoryIn(sem)), Filter(plan, ElectiveIn(sem)))
  }

  /** The partition loses and duplicates nothing: counted with
      multiplicity, the two lists together are the semester's listed
      courses. */
  lemma PartitionCountsSemester(plan: seq<Course>, sem: int)
    ensures multiset(CoursesBySemester(plan, sem).obligatory) + multiset(CoursesBySemester(plan, sem).elective)
            == multiset(Filter(plan, ListedIn(sem)))
    ensures |CoursesBySemester(plan, sem).obligatory| + |CoursesBySemester(plan, sem).elective|
            == |Filter(plan, ListedIn(sem))|
  {
    FilterPartition(plan, ObligatoryIn(sem), ElectiveIn(sem), ListedIn(sem));
    var r := CoursesBySemester(plan, sem);
    assert |multiset(r.obligatory) + multiset(r.elective)| == |multiset(Filter(plan, ListedIn(sem)))|;
  }
}

=== FILE: keywords.dfy ===
/** The two fixed keyword lists of the background classifier
    (bot/main.py:47-56), in source order. */
module Keywords {
  import opened Text

  const AiKeywords: seq<string> := [
    "машин", "ml", "ai", "tensorflow", "pytorch", "data science", "нейрон", "nlp",
    "обучение", "python", "gpu", "cuda", "матем", "алгоритм", "глубокое", "рекоменд", "статист",
    "scikit", "pandas", "нейросеть", "classification", "regression", "кластер", "оптимизац"
  ]

  const ProductKeywords: seq<string> := [
    "sql", "product", "таблиц", "ux", "ui", "бизнес", "tableau", "powerbi", "mvp",
    "аналит", "проект", "jira", "управ", "маркет", "финанс", "hci", "исслед", "прототип", "a/b",
    "amplitude", "mixpanel", "retention", "conversion", "unit economy", "kpi", "figma"
  ]

  /** `ai_keywords + product_keywords`, the list the elective matcher walks. */
  const AllKeywords: seq<string> := AiKeywords + ProductKeywords

  lemma KeywordCounts()
    ensures |AiKeywords| == 24 && |ProductKeywords| == 26
  {
  }

  /** Every entry of `keywords` is non-empty and starts with a visible
      character. */
  predicate StartVisible(keywords: seq<string>)
  {
    forall i :: 0 <= i < |keywords| ==> |keywords[i]| > 0 && !IsSpace(keywords[i][0])
  }

  lemma AiKeywordsStartVisible()
    ensures StartVisible(AiKeywords)
  {
  }

  lemma ProductKeywordsStartVisible()
    ensures StartVisible(ProductKeywords)
  {
  }

  /** Every entry starts with a letter, so none is empty or blank. */
  lemma KeywordsStartVisible()
    ensures StartVisible(AllKeywords)
  {
    AiKeywordsStartVisible();
    ProductKeywordsStartVisible();
    KeywordCounts();
    forall i | 0 <= i < |AllKeywords|
      ensures |AllKeywords[i]| > 0 && !IsSpace(AllKeywords[i][0])
    {
      if i >= 24 {
        assert AllKeywords[i] == ProductKeywords[i - 24];
      }
    }
  }
}

=== FILE: matcher.dfy ===
/** The elective recommendation of `process_background`
    (bot/main.py:73-85): elective courses of the chosen plan whose name
    mentions a keyword that the user's text mentions, at most five shown. */
module Matcher {
  import opened Basics
  import opened Text
  import opened Keywords
  import opened Classifier
  import opened Curriculum

  /** `elective_matches[:5]`. */
  const MaxShown: nat := 5

  /** Some keyword of `keywords` occurs both in `text` and in `name`. */
  predicate SharesKeyword(keywords: seq<string>, name: string, text: string)
  {
    exists kw | kw in keywords :: Contains(text, kw) && Contains(name, kw)
  }

  /** `any(kw in name for kw in ai_keywords + product_keywords if kw in text)`
      with `name` lower-cased; `text` is the already lower-cased message. */
  predicate NameMatches(name: string, text: string)
  {
    SharesKeyword(AllKeywords, Lower(name), text)
  }

  function MatchesFor(text: string): Course -> bool
  {
    (c: Course) => c.ctype == ElectiveTag && NameMatches(c.name, text)
  }

  /** The list `elective_matches` built at bot/main.py:74-79. */
  function ElectiveMatches(plan: seq<Course>, text: string): (r: seq<Course>)
    ensures IsSubseq(r, plan)
    ensures forall c :: c in r <==> c in plan && c.ctype == ElectiveTag && NameMatches(c.name, text)
  {
    Filter(plan, MatchesFor(text))
  }

  /** The electives shown to the user: the first matches, in plan order,
      never more than five. */
  function Recommended(plan: seq<Course>, text: string): (r: seq<Course>)
    ensures |r| <= MaxShown
    ensures IsSubseq(r, plan)
    ensures |r| == Min(MaxShown, |ElectiveMatches(plan, text)|)
    ensures forall i :: 0 <= i < |r| ==> r[i] == ElectiveMatches(plan, text)[i]
    ensures forall c :: c in r ==> c in plan && c.ctype == ElectiveTag && NameMatches(c.name, text)
  {
    var matches := ElectiveMatches(plan, text);
    var r := Take(matches, MaxShown);
    PrefixIsSubseq(matches, |r|);
    assert r == matches[..|r|];
    SubseqTransitive(r, matches, plan);
    r
  }

  /** Collecting matches only until five are found shows the same courses
      as collecting all of them and cutting the list at five. */
  lemma EarlyStopAgrees(plan: seq<Course>, text: string)
    ensures FilterUpTo(plan, MatchesFor(text), MaxShown) == Recommended(plan, text)
  {
    FilterUpToIsTake(plan, MatchesFor(text), MaxShown);
  }

  /** A course is never recommended on account of a keyword the user did
      not mention: if every keyword in its name is absent from the text,
      it is not matched. */
  lemma UnmentionedKeywordsNeverMatch(plan: seq<Course>, text: string, c: Course)
    requires forall kw :: kw in AllKeywords && Contains(Lower(c.name), kw) ==> !Contains(text, kw)
    ensures c !in ElectiveMatches(plan, text)
  {
  }

  /** The matches depend on the text only through which keywords occur
      in it. */
  lemma MatchesDependOnlyOnPresentKeywords(plan: seq<Course>, t1: string, t2: string)
    requires Present(AllKeywords, t1) == Present(AllKeywords, t2)
    ensures ElectiveMatches(plan, t1) == ElectiveMatches(plan, t2)
  {
    forall i | 0 <= i < |plan|
      ensures MatchesFor(t1)(plan[i]) == MatchesFor(t2)(plan[i])
    {
      assert forall kw :: kw in AllKeywords ==> (Contains(t1, kw) <==> Contains(t2, kw));
    }
    FilterCongruent(plan, MatchesFor(t1), MatchesFor(t2));
  }

  /** Mentioning more keywords never removes a match: the matches of the
      poorer text are a subsequence of those of the richer one. */
  lemma MoreKeywordsMoreMatches(plan: seq<Course>, t1: string, t2: string)
    requires forall kw :: kw in AllKeywords && Contains(t1, kw) ==> Contains(t2, kw)
    ensures IsSubseq(ElectiveMatches(plan, t1), ElectiveMatches(plan, t2))
  {
    FilterWeakerIsSupersequence(plan, MatchesFor(t1), MatchesFor(t2));
  }

  /** The generator inside `any(...)`: walk the keywords in order,
      consider only those occurring in `text`, stop at the first one that
      also occurs in `name`. */
  method MentionsPresentKeyword(keywords: seq<string>, name: string, text: string) returns (hit: bool)
    ensures hit <==> SharesKeyword(keywords, name, text)
  {
    hit := false;
    var j := 0;
    while j < |keywords| && !hit
      invariant 0 <= j <= |keywords|
      invariant hit <==> exists k | 0 <= k < j :: Contains(text, keywords[k]) && Contains(name, keywords[k])
    {
      var kw := keywords[j];
      if Contains(text, kw) && Contains(name, kw) {
        hit := true;
      }
      j := j + 1;
    }
  }

  /** The loop of bot/main.py:74-79 over the plan, in plan order. */
  method MatchElectives(plan: seq<Course>, text: string) returns (matches: seq<Course>)
    ensures matches == ElectiveMatches(plan, text)
  {
    matches := [];
    var i := 0;
    while i < |plan|
      invariant 0 <= i <= |plan|
      invariant matches == Filter(plan[..i], MatchesFor(text))
    {
      var course := plan[i];
      var keep := false;
      if course.ctype == ElectiveTag {
        keep := MentionsPresentKeyword(AllKeywords, Lower(course.name), text);
      }
      assert keep == MatchesFor(text)(course);
      FilterSnoc(plan, i, MatchesFor(text));
      if keep {
        matches := matches + [course];
      }
      i := i + 1;
    }
    assert plan[..|plan|] == plan;
  }
}

=== FILE: scenarios.dfy ===
/** The worked examples of the bot's behaviour, proved on the concrete
    texts: two decided backgrounds, one undetermined, one semester listing,
    and a semester listing before any plan was recorded. The lemmas before
    the scenarios establish, keyword by keyword, which entries occur in
    each text. */
module Scenarios {
  import opened Text
  import opened Keywords
  import opened Classifier
  import opened Curriculum
  import opened Callbacks
  import opened Conversation

  const TextA: string := "я изучал python, " + "pandas и нейросети"
  const TextB: string := "работал с Tableau, " + "делал A/B тесты и " + "считал conversion"
  const LoweredB: string := "работал с tableau, " + "делал a/b тесты и " + "считал conversion"
  const TextC: string := "люблю котов"

  lemma LowerA()
    ensures Lower(TextA) == TextA
  {
    forall i | 0 <= i < |TextA|
      ensures Lower(TextA)[i] == TextA[i]
    {
      assert i in {0, 1, 2, 3, 4, 5, 6, 7, 8, 9, 10, 11, 12, 13, 14, 15, 16, 17, 18, 19, 20, 21, 22, 23, 24, 25, 26, 27, 28, 29, 30, 31, 32, 33, 34};
    }
  }

  lemma LowerB()
    ensures Lower(TextB) == LoweredB
  {
    assert LowerChar('A') == 'a';
    assert LowerChar('B') == 'b';
    assert LowerChar('T') == 't';
    forall i | 0 <= i < |TextB|
      ensures Lower(TextB)[i] == LoweredB[i]
    {
      assert i in {0, 1, 2, 3, 4, 5, 6, 7, 8, 9, 10, 11, 12, 13, 14, 15, 16, 17, 18, 19, 20, 21, 22, 23, 24, 25, 26, 27, 28, 29, 30, 31, 32, 33, 34, 35, 36, 37, 38, 39, 40, 41, 42, 43, 44, 45, 46, 47, 48, 49, 50, 51, 52, 53};
    }
  }

  lemma LowerC()
    ensures Lower(TextC) == TextC
  {
    forall i | 0 <= i < |TextC|
      ensures Lower(TextC)[i] == TextC[i]
    {
      assert i in {0, 1, 2, 3, 4, 5, 6, 7, 8, 9, 10};
    }
  }


  // Which AI keywords occur in TextA. Each absent keyword gets a lemma of
  // its own: one proof over the whole list exceeds the solver budget,
  // since each needs a character of the keyword that the text lacks or
  // a scan of every position. The Hits lemmas collect the results.
  lemma AAiKeywordsAbsent0()
    ensures !Contains(TextA, AiKeywords[0])
  {
    ForeignCharExcludes(TextA, AiKeywords[0], 0);
  }

  lemma AAiKeywordsAbsent1()
    ensures !Contains(TextA, AiKeywords[1])
  {
    ForeignCharExcludes(TextA, AiKeywords[1], 0);
  }

  lemma AAiKeywordsAbsent2()
    ensures !Contains(TextA, AiKeywords[2])
  {
    ForeignCharExcludes(TextA, AiKeywords[2], 1);
  }

  lemma AAiKeywordsAbsent3()
    ensures !Contains(TextA, AiKeywords[3])
  {
    ForeignCharExcludes(TextA, AiKeywords[3], 1);
  }

  lemma AAiKeywordsAbsent4()
    ensures !Contains(TextA, AiKeywords[4])
  {
    ForeignCharExcludes(TextA, AiKeywords[4], 4);
  }

  lemma AAiKeywordsAbsent5()
    ensures !Contains(TextA, AiKeywords[5])
  {
    ForeignCharExcludes(TextA, AiKeywords[5], 6);
  }

  lemma AAiKeywordsAbsent7()
    ensures !Contains(TextA, AiKeywords[7])
  {
    ForeignCharExcludes(TextA, AiKeywords[7], 1);
  }

  lemma AAiKeywordsAbsent8()
    ensures !Contains(TextA, AiKeywords[8])
  {
    ForeignCharExcludes(TextA, AiKeywords[8], 1);
  }

  lemma AAiKeywordsAbsent10()
    ensures !Contains(TextA, AiKeywords[10])
  {
    ForeignCharExcludes(TextA, AiKeywords[10], 0);
  }

  lemma AAiKeywordsAbsent11()
    ensures !Contains(TextA, AiKeywords[11])
  {
    ForeignCharExcludes(TextA, AiKeywords[11], 0);
  }

  lemma AAiKeywordsAbsent12()
    ensures !Contains(TextA, AiKeywords[12])
  {
    ForeignCharExcludes(TextA, AiKeywords[12], 0);
  }

  lemma AAiKeywordsAbsent13()
    ensures !Contains(TextA, AiKeywords[13])
  {
    ForeignCharExcludes(TextA, AiKeywords[13], 2);
  }

  lemma AAiKeywordsAbsent14()
    ensures !Contains(TextA, AiKeywords[14])
  {
    ForeignCharExcludes(TextA, AiKeywords[14], 0);
  }

  lemma AAiKeywordsAbsent15()
    ensures !Contains(TextA, AiKeywords[15])
  {
    ForeignCharExcludes(TextA, AiKeywords[15], 2);
  }

  lemma AAiKeywordsAbsent17()
    ensures !Contains(TextA, AiKeywords[17])
  {
    ForeignCharExcludes(TextA, AiKeywords[17], 1);
  }

  lemma AAiKeywordsAbsent19()
    ensures !Contains(TextA, AiKeywords[19])
  {
    ForeignCharExcludes(TextA, AiKeywords[19], 8);
  }

  lemma AAiKeywordsAbsent20()
    ensures !Contains(TextA, AiKeywords[20])
  {
    ForeignCharExcludes(TextA, AiKeywords[20], 0);
  }

  lemma AAiKeywordsAbsent21()
    ensures !Contains(TextA, AiKeywords[21])
  {
    ForeignCharExcludes(TextA, AiKeywords[21], 0);
  }

  lemma AAiKeywordsAbsent22()
    ensures !Contains(TextA, AiKeywords[22])
  {
    ForeignCharExcludes(TextA, AiKeywords[22], 0);
  }

  lemma AAiKeywordsAbsent23()
    ensures !Contains(TextA, AiKeywords[23])
  {
    ForeignCharExcludes(TextA, AiKeywords[23], 1);
  }

  lemma AAiKeywordsAbsent6()
    ensures !Contains(TextA, AiKeywords[6])
  {
    var kw := AiKeywords[6];
    assert kw == "нейрон";
    forall p | 0 <= p <= |TextA|
      ensures !OccursAt(TextA, kw, p)
    {
      if p + |kw| <= |TextA| {
        assert p in {0, 1, 2, 3, 4, 5, 6, 7, 8, 9, 10, 11, 12, 13, 14, 15, 16, 17, 18, 19, 20, 21, 22, 23, 24, 25, 26, 27, 28, 29};
        if p == 26 {
          MismatchExcludes(TextA, kw, p, 5);
        } else {
          MismatchExcludes(TextA, kw, p, 0);
        }
      }
    }
  }

  lemma AAiKeywordsAbsent16()
    ensures !Contains(TextA, AiKeywords[16])
  {
    var kw := AiKeywords[16];
    assert kw == "статист";
    forall p | 0 <= p <= |TextA|
      ensures !OccursAt(TextA, kw, p)
    {
      if p + |kw| <= |TextA| {
        assert p in {0, 1, 2, 3, 4, 5, 6, 7, 8, 9, 10, 11, 12, 13, 14, 15, 16, 17, 18, 19, 20, 21, 22, 23, 24, 25, 26, 27, 28};
        MismatchExcludes(TextA, kw, p, 0);
      }
    }
  }

  lemma AAiKeywordsHitsLow()
    ensures forall i :: 0 <= i < 12 ==> (Contains(TextA, AiKeywords[i]) <==> i in {9, 18})
  {
    KeywordCounts();
    AAiKeywordsAbsent0();
    AAiKeywordsAbsent1();
    AAiKeywordsAbsent2();
    AAiKeywordsAbsent3();
    AAiKeywordsAbsent4();
    AAiKeywordsAbsent5();
    AAiKeywordsAbsent6();
    AAiKeywordsAbsent7();
    AAiKeywordsAbsent8();
    OccursAtByChars(TextA, AiKeywords[9], 9);
    AAiKeywordsAbsent10();
    AAiKeywordsAbsent11();
    forall i | 0 <= i < 12
      ensures Contains(TextA, AiKeywords[i]) <==> i in {9, 18}
    {
      assert i in {0, 1, 2, 3, 4, 5, 6, 7, 8, 9, 10, 11};
    }
  }

  lemma AAiKeywordsHitsHigh()
    ensures forall i :: 12 <= i < |AiKeywords| ==> (Contains(TextA, AiKeywords[i]) <==> i in {9, 18})
  {
    KeywordCounts();
    AAiKeywordsAbsent12();
    AAiKeywordsAbsent13();
    AAiKeywordsAbsent14();
    AAiKeywordsAbsent15();
    AAiKeywordsAbsent16();
    AAiKeywordsAbsent17();
    OccursAtByChars(TextA, AiKeywords[18], 17);
    AAiKeywordsAbsent19();
    AAiKeywordsAbsent20();
    AAiKeywordsAbsent21();
    AAiKeywordsAbsent22();
    AAiKeywordsAbsent23();
    forall i | 12 <= i < |AiKeywords|
      ensures Contains(TextA, AiKeywords[i]) <==> i in {9, 18}
    {
      assert i in {12, 13, 14, 15, 16, 17, 18, 19, 20, 21, 22, 23};
    }
  }

  /** Exactly the entries {9, 18} of the list occur. */
  lemma AAiKeywordsHits()
    ensures forall i :: 0 <= i < |AiKeywords| ==> (Contains(TextA, AiKeywords[i]) <==> i in {9, 18})
  {
    AAiKeywordsHitsLow();
    AAiKeywordsHitsHigh();
  }


  // Which product keywords occur in TextA. Each absent keyword gets a lemma of
  // its own: one proof over the whole list exceeds the solver budget,
  // since each needs a character of the keyword that the text lacks or
  // a scan of every position. The Hits lemmas collect the results.
  lemma AProductKeywordsAbsent0()
    ensures !Contains(TextA, ProductKeywords[0])
  {
    ForeignCharExcludes(TextA, ProductKeywords[0], 1);
  }

  lemma AProductKeywordsAbsent1()
    ensures !Contains(TextA, ProductKeywords[1])
  {
    ForeignCharExcludes(TextA, ProductKeywords[1], 1);
  }

  lemma AProductKeywordsAbsent2()
    ensures !Contains(TextA, ProductKeywords[2])
  {
    ForeignCharExcludes(TextA, ProductKeywords[2], 2);
  }

  lemma AProductKeywordsAbsent3()
    ensures !Contains(TextA, ProductKeywords[3])
  {
    ForeignCharExcludes(TextA, ProductKeywords[3], 0);
  }

  lemma AProductKeywordsAbsent4()
    ensures !Contains(TextA, ProductKeywords[4])
  {
    ForeignCharExcludes(TextA, ProductKeywords[4], 0);
  }

  lemma AProductKeywordsAbsent5()
    ensures !Contains(TextA, ProductKeywords[5])
  {
    ForeignCharExcludes(TextA, ProductKeywords[5], 0);
  }

  lemma AProductKeywordsAbsent6()
    ensures !Contains(TextA, ProductKeywords[6])
  {
    ForeignCharExcludes(TextA, ProductKeywords[6], 2);
  }

  lemma AProductKeywordsAbsent7()
    ensures !Contains(TextA, ProductKeywords[7])
  {
    ForeignCharExcludes(TextA, ProductKeywords[7], 2);
  }

  lemma AProductKeywordsAbsent8()
    ensures !Contains(TextA, ProductKeywords[8])
  {
    ForeignCharExcludes(TextA, ProductKeywords[8], 0);
  }

  lemma AProductKeywordsAbsent10()
    ensures !Contains(TextA, ProductKeywords[10])
  {
    ForeignCharExcludes(TextA, ProductKeywords[10], 0);
  }

  lemma AProductKeywordsAbsent11()
    ensures !Contains(TextA, ProductKeywords[11])
  {
    ForeignCharExcludes(TextA, ProductKeywords[11], 0);
  }

  lemma AProductKeywordsAbsent12()
    ensures !Contains(TextA, ProductKeywords[12])
  {
    ForeignCharExcludes(TextA, ProductKeywords[12], 1);
  }

  lemma AProductKeywordsAbsent13()
    ensures !Contains(TextA, ProductKeywords[13])
  {
    ForeignCharExcludes(TextA, ProductKeywords[13], 0);
  }

  lemma AProductKeywordsAbsent14()
    ensures !Contains(TextA, ProductKeywords[14])
  {
    ForeignCharExcludes(TextA, ProductKeywords[14], 0);
  }

  lemma AProductKeywordsAbsent15()
    ensures !Contains(TextA, ProductKeywords[15])
  {
    ForeignCharExcludes(TextA, ProductKeywords[15], 1);
  }

  lemma AProductKeywordsAbsent16()
    ensures !Contains(TextA, ProductKeywords[16])
  {
    ForeignCharExcludes(TextA, ProductKeywords[16], 5);
  }

  lemma AProductKeywordsAbsent17()
    ensures !Contains(TextA, ProductKeywords[17])
  {
    ForeignCharExcludes(TextA, ProductKeywords[17], 0);
  }

  lemma AProductKeywordsAbsent18()
    ensures !Contains(TextA, ProductKeywords[18])
  {
    ForeignCharExcludes(TextA, ProductKeywords[18], 1);
  }

  lemma AProductKeywordsAbsent19()
    ensures !Contains(TextA, ProductKeywords[19])
  {
    ForeignCharExcludes(TextA, ProductKeywords[19], 1);
  }

  lemma AProductKeywordsAbsent20()
    ensures !Contains(TextA, ProductKeywords[20])
  {
    ForeignCharExcludes(TextA, ProductKeywords[20], 0);
  }

  lemma AProductKeywordsAbsent21()
    ensures !Contains(TextA, ProductKeywords[21])
  {
    ForeignCharExcludes(TextA, ProductKeywords[21], 0);
  }

  lemma AProductKeywordsAbsent22()
    ensures !Contains(TextA, ProductKeywords[22])
  {
    ForeignCharExcludes(TextA, ProductKeywords[22], 0);
  }

  lemma AProductKeywordsAbsent23()
    ensures !Contains(TextA, ProductKeywords[23])
  {
    ForeignCharExcludes(TextA, ProductKeywords[23], 0);
  }

  lemma AProductKeywordsAbsent24()
    ensures !Contains(TextA, ProductKeywords[24])
  {
    ForeignCharExcludes(TextA, ProductKeywords[24], 0);
  }

  lemma AProductKeywordsAbsent25()
    ensures !Contains(TextA, ProductKeywords[25])
  {
    ForeignCharExcludes(TextA, ProductKeywords[25], 0);
  }

  lemma AProductKeywordsAbsent9()
    ensures !Contains(TextA, ProductKeywords[9])
  {
    var kw := ProductKeywords[9];
    assert kw == "аналит";
    forall p | 0 <= p <= |TextA|
      ensures !OccursAt(TextA, kw, p)
    {
      if p + |kw| <= |TextA| {
        assert p in {0, 1, 2, 3, 4, 5, 6, 7, 8, 9, 10, 11, 12, 13, 14, 15, 16, 17, 18, 19, 20, 21, 22, 23, 24, 25, 26, 27, 28, 29};
        if p == 6 {
          MismatchExcludes(TextA, kw, p, 1);
        } else {
          MismatchExcludes(TextA, kw, p, 0);
        }
      }
    }
  }

  lemma AProductKeywordsHitsLow()
    ensures forall i :: 0 <= i < 13 ==> (Contains(TextA, ProductKeywords[i]) <==> i in {})
  {
    KeywordCounts();
    AProductKeywordsAbsent0();
    AProductKeywordsAbsent1();
    AProductKeywordsAbsent2();
    AProductKeywordsAbsent3();
    AProductKeywordsAbsent4();
    AProductKeywordsAbsent5();
    AProductKeywordsAbsent6();
    AProductKeywordsAbsent7();
    AProductKeywordsAbsent8();
    AProductKeywordsAbsent9();
    AProductKeywordsAbsent10();
    AProductKeywordsAbsent11();
    AProductKeywordsAbsent12();
    forall i | 0 <= i < 13
      ensures Contains(TextA, ProductKeywords[i]) <==> i in {}
    {
      assert i in {0, 1, 2, 3, 4, 5, 6, 7, 8, 9, 10, 11, 12};
    }
  }

  lemma AProductKeywordsHitsHigh()
    ensures forall i :: 13 <= i < |ProductKeywords| ==> (Contains(TextA, ProductKeywords[i]) <==> i in {})
  {
    KeywordCounts();
    AProductKeywordsAbsent13();
    AProductKeywordsAbsent14();
    AProductKeywordsAbsent15();
    AProductKeywordsAbsent16();
    AProductKeywordsAbsent17();
    AProductKeywordsAbsent18();
    AProductKeywordsAbsent19();
    AProductKeywordsAbsent20();
    AProductKeywordsAbsent21();
    AProductKeywordsAbsent22();
    AProductKeywordsAbsent23();
    AProductKeywordsAbsent24();
    AProductKeywordsAbsent25();
    forall i | 13 <= i < |ProductKeywords|
      ensures Contains(TextA, ProductKeywords[i]) <==> i in {}
    {
      assert i in {13, 14, 15, 16, 17, 18, 19, 20, 21, 22, 23, 24, 25};
    }
  }

  /** No entry of the list occurs. */
  lemma AProductKeywordsHits()
    ensures forall i :: 0 <= i < |ProductKeywords| ==> (Contains(TextA, ProductKeywords[i]) <==> i in {})
  {
    AProductKeywordsHitsLow();
    AProductKeywordsHitsHigh();
  }


  // Which AI keywords occur in the lower-cased TextB. Each absent keyword gets a lemma of
  // its own: one proof over the whole list exceeds the solver budget,
  // since each needs a character of the keyword that the text lacks or
  // a scan of every position. The Hits lemmas collect the results.
  lemma BAiKeywordsAbsent0()
    ensures !Contains(LoweredB, AiKeywords[0])
  {
    ForeignCharExcludes(LoweredB, AiKeywords[0], 0);
  }

  lemma BAiKeywordsAbsent1()
    ensures !Contains(LoweredB, AiKeywords[1])
  {
    ForeignCharExcludes(LoweredB, AiKeywords[1], 0);
  }

  lemma BAiKeywordsAbsent3()
    ensures !Contains(LoweredB, AiKeywords[3])
  {
    ForeignCharExcludes(LoweredB, AiKeywords[3], 6);
  }

  lemma BAiKeywordsAbsent4()
    ensures !Contains(LoweredB, AiKeywords[4])
  {
    ForeignCharExcludes(LoweredB, AiKeywords[4], 0);
  }

  lemma BAiKeywordsAbsent5()
    ensures !Contains(LoweredB, AiKeywords[5])
  {
    ForeignCharExcludes(LoweredB, AiKeywords[5], 0);
  }

  lemma BAiKeywordsAbsent6()
    ensures !Contains(LoweredB, AiKeywords[6])
  {
    ForeignCharExcludes(LoweredB, AiKeywords[6], 0);
  }

  lemma BAiKeywordsAbsent7()
    ensures !Contains(LoweredB, AiKeywords[7])
  {
    ForeignCharExcludes(LoweredB, AiKeywords[7], 2);
  }

  lemma BAiKeywordsAbsent8()
    ensures !Contains(LoweredB, AiKeywords[8])
  {
    ForeignCharExcludes(LoweredB, AiKeywords[8], 2);
  }

  lemma BAiKeywordsAbsent9()
    ensures !Contains(LoweredB, AiKeywords[9])
  {
    ForeignCharExcludes(LoweredB, AiKeywords[9], 0);
  }

  lemma BAiKeywordsAbsent10()
    ensures !Contains(LoweredB, AiKeywords[10])
  {
    ForeignCharExcludes(LoweredB, AiKeywords[10], 0);
  }

  lemma BAiKeywordsAbsent11()
    ensures !Contains(LoweredB, AiKeywords[11])
  {
    ForeignCharExcludes(LoweredB, AiKeywords[11], 2);
  }

  lemma BAiKeywordsAbsent12()
    ensures !Contains(LoweredB, AiKeywords[12])
  {
    ForeignCharExcludes(LoweredB, AiKeywords[12], 0);
  }

  lemma BAiKeywordsAbsent13()
    ensures !Contains(LoweredB, AiKeywords[13])
  {
    ForeignCharExcludes(LoweredB, AiKeywords[13], 2);
  }

  lemma BAiKeywordsAbsent14()
    ensures !Contains(LoweredB, AiKeywords[14])
  {
    ForeignCharExcludes(LoweredB, AiKeywords[14], 0);
  }

  lemma BAiKeywordsAbsent15()
    ensures !Contains(LoweredB, AiKeywords[15])
  {
    ForeignCharExcludes(LoweredB, AiKeywords[15], 2);
  }

  lemma BAiKeywordsAbsent17()
    ensures !Contains(LoweredB, AiKeywords[17])
  {
    ForeignCharExcludes(LoweredB, AiKeywords[17], 3);
  }

  lemma BAiKeywordsAbsent18()
    ensures !Contains(LoweredB, AiKeywords[18])
  {
    ForeignCharExcludes(LoweredB, AiKeywords[18], 0);
  }

  lemma BAiKeywordsAbsent19()
    ensures !Contains(LoweredB, AiKeywords[19])
  {
    ForeignCharExcludes(LoweredB, AiKeywords[19], 0);
  }

  lemma BAiKeywordsAbsent20()
    ensures !Contains(LoweredB, AiKeywords[20])
  {
    ForeignCharExcludes(LoweredB, AiKeywords[20], 6);
  }

  lemma BAiKeywordsAbsent21()
    ensures !Contains(LoweredB, AiKeywords[21])
  {
    ForeignCharExcludes(LoweredB, AiKeywords[21], 2);
  }

  lemma BAiKeywordsAbsent22()
    ensures !Contains(LoweredB, AiKeywords[22])
  {
    ForeignCharExcludes(LoweredB, AiKeywords[22], 0);
  }

  lemma BAiKeywordsAbsent23()
    ensures !Contains(LoweredB, AiKeywords[23])
  {
    ForeignCharExcludes(LoweredB, AiKeywords[23], 1);
  }

  lemma BAiKeywordsAbsent2()
    ensures !Contains(LoweredB, AiKeywords[2])
  {
    var kw := AiKeywords[2];
    assert kw == "ai";
    forall p | 0 <= p <= |LoweredB|
      ensures !OccursAt(LoweredB, kw, p)
    {
      if p + |kw| <= |LoweredB| {
        assert p in {0, 1, 2, 3, 4, 5, 6, 7, 8, 9, 10, 11, 12, 13, 14, 15, 16, 17, 18, 19, 20, 21, 22, 23, 24, 25, 26, 27, 28, 29, 30, 31, 32, 33, 34, 35, 36, 37, 38, 39, 40, 41, 42, 43, 44, 45, 46, 47, 48, 49, 50, 51, 52};
        if p == 11 {
          MismatchExcludes(LoweredB, kw, p, 1);
        } else if p == 15 {
          MismatchExcludes(LoweredB, kw, p, 1);
        } else if p == 25 {
          MismatchExcludes(LoweredB, kw, p, 1);
        } else {
          MismatchExcludes(LoweredB, kw, p, 0);
        }
      }
    }
  }

  lemma BAiKeywordsAbsent16()
    ensures !Contains(LoweredB, AiKeywords[16])
  {
    var kw := AiKeywords[16];
    assert kw == "статист";
    forall p | 0 <= p <= |LoweredB|
      ensures !OccursAt(LoweredB, kw, p)
    {
      if p + |kw| <= |LoweredB| {
        assert p in {0, 1, 2, 3, 4, 5, 6, 7, 8, 9, 10, 11, 12, 13, 14, 15, 16, 17, 18, 19, 20, 21, 22, 23, 24, 25, 26, 27, 28, 29, 30, 31, 32, 33, 34, 35, 36, 37, 38, 39, 40, 41, 42, 43, 44, 45, 46, 47};
        if p == 8 {
          MismatchExcludes(LoweredB, kw, p, 1);
        } else if p == 31 {
          MismatchExcludes(LoweredB, kw, p, 2);
        } else if p == 37 {
          MismatchExcludes(LoweredB, kw, p, 1);
        } else {
          MismatchExcludes(LoweredB, kw, p, 0);
        }
      }
    }
  }

  lemma BAiKeywordsHitsLow()
    ensures forall i :: 0 <= i < 12 ==> (Contains(LoweredB, AiKeywords[i]) <==> i in {})
  {
    KeywordCounts();
    BAiKeywordsAbsent0();
    BAiKeywordsAbsent1();
    BAiKeywordsAbsent2();
    BAiKeywordsAbsent3();
    BAiKeywordsAbsent4();
    BAiKeywordsAbsent5();
    BAiKeywordsAbsent6();
    BAiKeywordsAbsent7();
    BAiKeywordsAbsent8();
    BAiKeywordsAbsent9();
    BAiKeywordsAbsent10();
    BAiKeywordsAbsent11();
    forall i | 0 <= i < 12
      ensures Contains(LoweredB, AiKeywords[i]) <==> i in {}
    {
      assert i in {0, 1, 2, 3, 4, 5, 6, 7, 8, 9, 10, 11};
    }
  }

  lemma BAiKeywordsHitsHigh()
    ensures forall i :: 12 <= i < |AiKeywords| ==> (Contains(LoweredB, AiKeywords[i]) <==> i in {})
  {
    KeywordCounts();
    BAiKeywordsAbsent12();
    BAiKeywordsAbsent13();
    BAiKeywordsAbsent14();
    BAiKeywordsAbsent15();
    BAiKeywordsAbsent16();
    BAiKeywordsAbsent17();
    BAiKeywordsAbsent18();
    BAiKeywordsAbsent19();
    BAiKeywordsAbsent20();
    BAiKeywordsAbsent21();
    BAiKeywordsAbsent22();
    BAiKeywordsAbsent23();
    forall i | 12 <= i < |AiKeywords|
      ensures Contains(LoweredB, AiKeywords[i]) <==> i in {}
    {
      assert i in {12, 13, 14, 15, 16, 17, 18, 19, 20, 21, 22, 23};
    }
  }

  /** No entry of the list occurs. */
  lemma BAiKeywordsHits()
    ensures forall i :: 0 <= i < |AiKeywords| ==> (Contains(LoweredB, AiKeywords[i]) <==> i in {})
  {
    BAiKeywordsHitsLow();
    BAiKeywordsHitsHigh();
  }


  // Which product keywords occur in the lower-cased TextB. Each absent keyword gets a lemma of
  // its own: one proof over the whole list exceeds the solver budget,
  // since each needs a character of the keyword that the text lacks or
  // a scan of every position. The Hits lemmas collect the results.
  lemma BProductKeywordsAbsent0()
    ensures !Contains(LoweredB, ProductKeywords[0])
  {
    ForeignCharExcludes(LoweredB, ProductKeywords[0], 1);
  }

  lemma BProductKeywordsAbsent1()
    ensures !Contains(LoweredB, ProductKeywords[1])
  {
    ForeignCharExcludes(LoweredB, ProductKeywords[1], 0);
  }

  lemma BProductKeywordsAbsent2()
    ensures !Contains(LoweredB, ProductKeywords[2])
  {
    ForeignCharExcludes(LoweredB, ProductKeywords[2], 5);
  }

  lemma BProductKeywordsAbsent3()
    ensures !Contains(LoweredB, ProductKeywords[3])
  {
    ForeignCharExcludes(LoweredB, ProductKeywords[3], 1);
  }

  lemma BProductKeywordsAbsent5()
    ensures !Contains(LoweredB, ProductKeywords[5])
  {
    ForeignCharExcludes(LoweredB, ProductKeywords[5], 2);
  }

  lemma BProductKeywordsAbsent7()
    ensures !Contains(LoweredB, ProductKeywords[7])
  {
    ForeignCharExcludes(LoweredB, ProductKeywords[7], 0);
  }

  lemma BProductKeywordsAbsent8()
    ensures !Contains(LoweredB, ProductKeywords[8])
  {
    ForeignCharExcludes(LoweredB, ProductKeywords[8], 0);
  }

  lemma BProductKeywordsAbsent9()
    ensures !Contains(LoweredB, ProductKeywords[9])
  {
    ForeignCharExcludes(LoweredB, ProductKeywords[9], 1);
  }

  lemma BProductKeywordsAbsent10()
    ensures !Contains(LoweredB, ProductKeywords[10])
  {
    ForeignCharExcludes(LoweredB, ProductKeywords[10], 0);
  }

  lemma BProductKeywordsAbsent11()
    ensures !Contains(LoweredB, ProductKeywords[11])
  {
    ForeignCharExcludes(LoweredB, ProductKeywords[11], 0);
  }

  lemma BProductKeywordsAbsent12()
    ensures !Contains(LoweredB, ProductKeywords[12])
  {
    ForeignCharExcludes(LoweredB, ProductKeywords[12], 0);
  }

  lemma BProductKeywordsAbsent13()
    ensures !Contains(LoweredB, ProductKeywords[13])
  {
    ForeignCharExcludes(LoweredB, ProductKeywords[13], 0);
  }

  lemma BProductKeywordsAbsent14()
    ensures !Contains(LoweredB, ProductKeywords[14])
  {
    ForeignCharExcludes(LoweredB, ProductKeywords[14], 0);
  }

  lemma BProductKeywordsAbsent15()
    ensures !Contains(LoweredB, ProductKeywords[15])
  {
    ForeignCharExcludes(LoweredB, ProductKeywords[15], 0);
  }

  lemma BProductKeywordsAbsent17()
    ensures !Contains(LoweredB, ProductKeywords[17])
  {
    ForeignCharExcludes(LoweredB, ProductKeywords[17], 0);
  }

  lemma BProductKeywordsAbsent19()
    ensures !Contains(LoweredB, ProductKeywords[19])
  {
    ForeignCharExcludes(LoweredB, ProductKeywords[19], 1);
  }

  lemma BProductKeywordsAbsent20()
    ensures !Contains(LoweredB, ProductKeywords[20])
  {
    ForeignCharExcludes(LoweredB, ProductKeywords[20], 0);
  }

  lemma BProductKeywordsAbsent23()
    ensures !Contains(LoweredB, ProductKeywords[23])
  {
    ForeignCharExcludes(LoweredB, ProductKeywords[23], 10);
  }

  lemma BProductKeywordsAbsent24()
    ensures !Contains(LoweredB, ProductKeywords[24])
  {
    ForeignCharExcludes(LoweredB, ProductKeywords[24], 0);
  }

  lemma BProductKeywordsAbsent25()
    ensures !Contains(LoweredB, ProductKeywords[25])
  {
    ForeignCharExcludes(LoweredB, ProductKeywords[25], 0);
  }

  lemma BProductKeywordsAbsent4()
    ensures !Contains(LoweredB, ProductKeywords[4])
  {
    var kw := ProductKeywords[4];
    assert kw == "ui";
    forall p | 0 <= p <= |LoweredB|
      ensures !OccursAt(LoweredB, kw, p)
    {
      if p + |kw| <= |LoweredB| {
        assert p in {0, 1, 2, 3, 4, 5, 6, 7, 8, 9, 10, 11, 12, 13, 14, 15, 16, 17, 18, 19, 20, 21, 22, 23, 24, 25, 26, 27, 28, 29, 30, 31, 32, 33, 34, 35, 36, 37, 38, 39, 40, 41, 42, 43, 44, 45, 46, 47, 48, 49, 50, 51, 52};
        if p == 16 {
          MismatchExcludes(LoweredB, kw, p, 1);
        } else {
          MismatchExcludes(LoweredB, kw, p, 0);
        }
      }
    }
  }

  lemma BProductKeywordsAbsent16()
    ensures !Contains(LoweredB, ProductKeywords[16])
  {
    var kw := ProductKeywords[16];
    assert kw == "исслед";
    forall p | 0 <= p <= |LoweredB|
      ensures !OccursAt(LoweredB, kw, p)
    {
      if p + |kw| <= |LoweredB| {
        assert p in {0, 1, 2, 3, 4, 5, 6, 7, 8, 9, 10, 11, 12, 13, 14, 15, 16, 17, 18, 19, 20, 21, 22, 23, 24, 25, 26, 27, 28, 29, 30, 31, 32, 33, 34, 35, 36, 37, 38, 39, 40, 41, 42, 43, 44, 45, 46, 47, 48};
        if p == 35 {
          MismatchExcludes(LoweredB, kw, p, 1);
        } else if p == 39 {
          MismatchExcludes(LoweredB, kw, p, 1);
        } else {
          MismatchExcludes(LoweredB, kw, p, 0);
        }
      }
    }
  }

  lemma BProductKeywordsAbsent21()
    ensures !Contains(LoweredB, ProductKeywords[21])
  {
    var kw := ProductKeywords[21];
    assert kw == "retention";
    forall p | 0 <= p <= |LoweredB|
      ensures !OccursAt(LoweredB, kw, p)
    {
      if p + |kw| <= |LoweredB| {
        assert p in {0, 1, 2, 3, 4, 5, 6, 7, 8, 9, 10, 11, 12, 13, 14, 15, 16, 17, 18, 19, 20, 21, 22, 23, 24, 25, 26, 27, 28, 29, 30, 31, 32, 33, 34, 35, 36, 37, 38, 39, 40, 41, 42, 43, 44, 45};
        MismatchExcludes(LoweredB, kw, p, 0);
      }
    }
  }

  lemma BProductKeywordsHitsLow()
    ensures forall i :: 0 <= i < 13 ==> (Contains(LoweredB, ProductKeywords[i]) <==> i in {6, 18, 22})
  {
    KeywordCounts();
    BProductKeywordsAbsent0();
    BProductKeywordsAbsent1();
    BProductKeywordsAbsent2();
    BProductKeywordsAbsent3();
    BProductKeywordsAbsent4();
    BProductKeywordsAbsent5();
    OccursAtByChars(LoweredB, ProductKeywords[6], 10);
    BProductKeywordsAbsent7();
    BProductKeywordsAbsent8();
    BProductKeywordsAbsent9();
    BProductKeywordsAbsent10();
    BProductKeywordsAbsent11();
    BProductKeywordsAbsent12();
    forall i | 0 <= i < 13
      ensures Contains(LoweredB, ProductKeywords[i]) <==> i in {6, 18, 22}
    {
      assert i in {0, 1, 2, 3, 4, 5, 6, 7, 8, 9, 10, 11, 12};
    }
  }

  lemma BProductKeywordsHitsHigh()
    ensures forall i :: 13 <= i < |ProductKeywords| ==> (Contains(LoweredB, ProductKeywords[i]) <==> i in {6, 18, 22})
  {
    KeywordCounts();
    BProductKeywordsAbsent13();
    BProductKeywordsAbsent14();
    BProductKeywordsAbsent15();
    BProductKeywordsAbsent16();
    BProductKeywordsAbsent17();
    OccursAtByChars(LoweredB, ProductKeywords[18], 25);
    BProductKeywordsAbsent19();
    BProductKeywordsAbsent20();
    BProductKeywordsAbsent21();
    OccursAtByChars(LoweredB, ProductKeywords[22], 44);
    BProductKeywordsAbsent23();
    BProductKeywordsAbsent24();
    BProductKeywordsAbsent25();
    forall i | 13 <= i < |ProductKeywords|
      ensures Contains(LoweredB, ProductKeywords[i]) <==> i in {6, 18, 22}
    {
      assert i in {13, 14, 15, 16, 17, 18, 19, 20, 21, 22, 23, 24, 25};
    }
  }

  /** Exactly the entries {6, 18, 22} of the list occur. */
  lemma BProductKeywordsHits()
    ensures forall i :: 0 <= i < |ProductKeywords| ==> (Contains(LoweredB, ProductKeywords[i]) <==> i in {6, 18, 22})
  {
    BProductKeywordsHitsLow();
    BProductKeywordsHitsHigh();
  }


  // Which AI keywords occur in TextC. Each absent keyword gets a lemma of
  // its own: one proof over the whole list exceeds the solver budget,
  // since each needs a character of the keyword that the text lacks or
  // a scan of every position. The Hits lemmas collect the results.
  lemma CAiKeywordsAbsent0()
    ensures !Contains(TextC, AiKeywords[0])
  {
    ForeignCharExcludes(TextC, AiKeywords[0], 0);
  }

  lemma CAiKeywordsAbsent1()
    ensures !Contains(TextC, AiKeywords[1])
  {
    ForeignCharExcludes(TextC, AiKeywords[1], 0);
  }

  lemma CAiKeywordsAbsent2()
    ensures !Contains(TextC, AiKeywords[2])
  {
    ForeignCharExcludes(TextC, AiKeywords[2], 0);
  }

  lemma CAiKeywordsAbsent3()
    ensures !Contains(TextC, AiKeywords[3])
  {
    ForeignCharExcludes(TextC, AiKeywords[3], 0);
  }

  lemma CAiKeywordsAbsent4()
    ensures !Contains(TextC, AiKeywords[4])
  {
    ForeignCharExcludes(TextC, AiKeywords[4], 0);
  }

  lemma CAiKeywordsAbsent5()
    ensures !Contains(TextC, AiKeywords[5])
  {
    ForeignCharExcludes(TextC, AiKeywords[5], 0);
  }

  lemma CAiKeywordsAbsent6()
    ensures !Contains(TextC, AiKeywords[6])
  {
    ForeignCharExcludes(TextC, AiKeywords[6], 0);
  }

  lemma CAiKeywordsAbsent7()
    ensures !Contains(TextC, AiKeywords[7])
  {
    ForeignCharExcludes(TextC, AiKeywords[7], 0);
  }

  lemma CAiKeywordsAbsent8()
    ensures !Contains(TextC, AiKeywords[8])
  {
    ForeignCharExcludes(TextC, AiKeywords[8], 2);
  }

  lemma CAiKeywordsAbsent9()
    ensures !Contains(TextC, AiKeywords[9])
  {
    ForeignCharExcludes(TextC, AiKeywords[9], 0);
  }

  lemma CAiKeywordsAbsent10()
    ensures !Contains(TextC, AiKeywords[10])
  {
    ForeignCharExcludes(TextC, AiKeywords[10], 0);
  }

  lemma CAiKeywordsAbsent11()
    ensures !Contains(TextC, AiKeywords[11])
  {
    ForeignCharExcludes(TextC, AiKeywords[11], 0);
  }

  lemma CAiKeywordsAbsent12()
    ensures !Contains(TextC, AiKeywords[12])
  {
    ForeignCharExcludes(TextC, AiKeywords[12], 0);
  }

  lemma CAiKeywordsAbsent13()
    ensures !Contains(TextC, AiKeywords[13])
  {
    ForeignCharExcludes(TextC, AiKeywords[13], 0);
  }

  lemma CAiKeywordsAbsent14()
    ensures !Contains(TextC, AiKeywords[14])
  {
    ForeignCharExcludes(TextC, AiKeywords[14], 0);
  }

  lemma CAiKeywordsAbsent15()
    ensures !Contains(TextC, AiKeywords[15])
  {
    ForeignCharExcludes(TextC, AiKeywords[15], 0);
  }

  lemma CAiKeywordsAbsent16()
    ensures !Contains(TextC, AiKeywords[16])
  {
    ForeignCharExcludes(TextC, AiKeywords[16], 0);
  }

  lemma CAiKeywordsAbsent17()
    ensures !Contains(TextC, AiKeywords[17])
  {
    ForeignCharExcludes(TextC, AiKeywords[17], 0);
  }

  lemma CAiKeywordsAbsent18()
    ensures !Contains(TextC, AiKeywords[18])
  {
    ForeignCharExcludes(TextC, AiKeywords[18], 0);
  }

  lemma CAiKeywordsAbsent19()
    ensures !Contains(TextC, AiKeywords[19])
  {
    ForeignCharExcludes(TextC, AiKeywords[19], 0);
  }

  lemma CAiKeywordsAbsent20()
    ensures !Contains(TextC, AiKeywords[20])
  {
    ForeignCharExcludes(TextC, AiKeywords[20], 0);
  }

  lemma CAiKeywordsAbsent21()
    ensures !Contains(TextC, AiKeywords[21])
  {
    ForeignCharExcludes(TextC, AiKeywords[21], 0);
  }

  lemma CAiKeywordsAbsent22()
    ensures !Contains(TextC, AiKeywords[22])
  {
    ForeignCharExcludes(TextC, AiKeywords[22], 2);
  }

  lemma CAiKeywordsAbsent23()
    ensures !Contains(TextC, AiKeywords[23])
  {
    ForeignCharExcludes(TextC, AiKeywords[23], 1);
  }

  lemma CAiKeywordsHitsLow()
    ensures forall i :: 0 <= i < 12 ==> (Contains(TextC, AiKeywords[i]) <==> i in {})
  {
    KeywordCounts();
    CAiKeywordsAbsent0();
    CAiKeywordsAbsent1();
    CAiKeywordsAbsent2();
    CAiKeywordsAbsent3();
    CAiKeywordsAbsent4();
    CAiKeywordsAbsent5();
    CAiKeywordsAbsent6();
    CAiKeywordsAbsent7();
    CAiKeywordsAbsent8();
    CAiKeywordsAbsent9();
    CAiKeywordsAbsent10();
    CAiKeywordsAbsent11();
    forall i | 0 <= i < 12
      ensures Contains(TextC, AiKeywords[i]) <==> i in {}
    {
      assert i in {0, 1, 2, 3, 4, 5, 6, 7, 8, 9, 10, 11};
    }
  }

  lemma CAiKeywordsHitsHigh()
    ensures forall i :: 12 <= i < |AiKeywords| ==> (Contains(TextC, AiKeywords[i]) <==> i in {})
  {
    KeywordCounts();
    CAiKeywordsAbsent12();
    CAiKeywordsAbsent13();
    CAiKeywordsAbsent14();
    CAiKeywordsAbsent15();
    CAiKeywordsAbsent16();
    CAiKeywordsAbsent17();
    CAiKeywordsAbsent18();
    CAiKeywordsAbsent19();
    CAiKeywordsAbsent20();
    CAiKeywordsAbsent21();
    CAiKeywordsAbsent22();
    CAiKeywordsAbsent23();
    forall i | 12 <= i < |AiKeywords|
      ensures Contains(TextC, AiKeywords[i]) <==> i in {}
    {
      assert i in {12, 13, 14, 15, 16, 17, 18, 19, 20, 21, 22, 23};
    }
  }

  /** No entry of the list occurs. */
  lemma CAiKeywordsHits()
    ensures forall i :: 0 <= i < |AiKeywords| ==> (Contains(TextC, AiKeywords[i]) <==> i in {})
  {
    CAiKeywordsHitsLow();
    CAiKeywordsHitsHigh();
  }


  // Which product keywords occur in TextC. Each absent keyword gets a lemma of
  // its own: one proof over the whole list exceeds the solver budget,
  // since each needs a character of the keyword that the text lacks or
  // a scan of every position. The Hits lemmas collect the results.
  lemma CProductKeywordsAbsent0()
    ensures !Contains(TextC, ProductKeywords[0])
  {
    ForeignCharExcludes(TextC, ProductKeywords[0], 0);
  }

  lemma CProductKeywordsAbsent1()
    ensures !Contains(TextC, ProductKeywords[1])
  {
    ForeignCharExcludes(TextC, ProductKeywords[1], 0);
  }

  lemma CProductKeywordsAbsent2()
    ensures !Contains(TextC, ProductKeywords[2])
  {
    ForeignCharExcludes(TextC, ProductKeywords[2], 1);
  }

  lemma CProductKeywordsAbsent3()
    ensures !Contains(TextC, ProductKeywords[3])
  {
    ForeignCharExcludes(TextC, ProductKeywords[3], 0);
  }

  lemma CProductKeywordsAbsent4()
    ensures !Contains(TextC, ProductKeywords[4])
  {
    ForeignCharExcludes(TextC, ProductKeywords[4], 0);
  }

  lemma CProductKeywordsAbsent5()
    ensures !Contains(TextC, ProductKeywords[5])
  {
    ForeignCharExcludes(TextC, ProductKeywords[5], 1);
  }

  lemma CProductKeywordsAbsent6()
    ensures !Contains(TextC, ProductKeywords[6])
  {
    ForeignCharExcludes(TextC, ProductKeywords[6], 0);
  }

  lemma CProductKeywordsAbsent7()
    ensures !Contains(TextC, ProductKeywords[7])
  {
    ForeignCharExcludes(TextC, ProductKeywords[7], 0);
  }

  lemma CProductKeywordsAbsent8()
    ensures !Contains(TextC, ProductKeywords[8])
  {
    ForeignCharExcludes(TextC, ProductKeywords[8], 0);
  }

  lemma CProductKeywordsAbsent9()
    ensures !Contains(TextC, ProductKeywords[9])
  {
    ForeignCharExcludes(TextC, ProductKeywords[9], 0);
  }

  lemma CProductKeywordsAbsent10()
    ensures !Contains(TextC, ProductKeywords[10])
  {
    ForeignCharExcludes(TextC, ProductKeywords[10], 0);
  }

  lemma CProductKeywordsAbsent11()
    ensures !Contains(TextC, ProductKeywords[11])
  {
    ForeignCharExcludes(TextC, ProductKeywords[11], 0);
  }

  lemma CProductKeywordsAbsent12()
    ensures !Contains(TextC, ProductKeywords[12])
  {
    ForeignCharExcludes(TextC, ProductKeywords[12], 0);
  }

  lemma CProductKeywordsAbsent13()
    ensures !Contains(TextC, ProductKeywords[13])
  {
    ForeignCharExcludes(TextC, ProductKeywords[13], 0);
  }

  lemma CProductKeywordsAbsent14()
    ensures !Contains(TextC, ProductKeywords[14])
  {
    ForeignCharExcludes(TextC, ProductKeywords[14], 0);
  }

  lemma CProductKeywordsAbsent15()
    ensures !Contains(TextC, ProductKeywords[15])
  {
    ForeignCharExcludes(TextC, ProductKeywords[15], 0);
  }

  lemma CProductKeywordsAbsent16()
    ensures !Contains(TextC, ProductKeywords[16])
  {
    ForeignCharExcludes(TextC, ProductKeywords[16], 0);
  }

  lemma CProductKeywordsAbsent17()
    ensures !Contains(TextC, ProductKeywords[17])
  {
    ForeignCharExcludes(TextC, ProductKeywords[17], 0);
  }

  lemma CProductKeywordsAbsent18()
    ensures !Contains(TextC, ProductKeywords[18])
  {
    ForeignCharExcludes(TextC, ProductKeywords[18], 0);
  }

  lemma CProductKeywordsAbsent19()
    ensures !Contains(TextC, ProductKeywords[19])
  {
    ForeignCharExcludes(TextC, ProductKeywords[19], 0);
  }

  lemma CProductKeywordsAbsent20()
    ensures !Contains(TextC, ProductKeywords[20])
  {
    ForeignCharExcludes(TextC, ProductKeywords[20], 0);
  }

  lemma CProductKeywordsAbsent21()
    ensures !Contains(TextC, ProductKeywords[21])
  {
    ForeignCharExcludes(TextC, ProductKeywords[21], 0);
  }

  lemma CProductKeywordsAbsent22()
    ensures !Contains(TextC, ProductKeywords[22])
  {
    ForeignCharExcludes(TextC, ProductKeywords[22], 0);
  }

  lemma CProductKeywordsAbsent23()
    ensures !Contains(TextC, ProductKeywords[23])
  {
    ForeignCharExcludes(TextC, ProductKeywords[23], 0);
  }

  lemma CProductKeywordsAbsent24()
    ensures !Contains(TextC, ProductKeywords[24])
  {
    ForeignCharExcludes(TextC, ProductKeywords[24], 0);
  }

  lemma CProductKeywordsAbsent25()
    ensures !Contains(TextC, ProductKeywords[25])
  {
    ForeignCharExcludes(TextC, ProductKeywords[25], 0);
  }

  lemma CProductKeywordsHitsLow()
    ensures forall i :: 0 <= i < 13 ==> (Contains(TextC, ProductKeywords[i]) <==> i in {})
  {
    KeywordCounts();
    CProductKeywordsAbsent0();
    CProductKeywordsAbsent1();
    CProductKeywordsAbsent2();
    CProductKeywordsAbsent3();
    CProductKeywordsAbsent4();
    CProductKeywordsAbsent5();
    CProductKeywordsAbsent6();
    CProductKeywordsAbsent7();
    CProductKeywordsAbsent8();
    CProductKeywordsAbsent9();
    CProductKeywordsAbsent10();
    CProductKeywordsAbsent11();
    CProductKeywordsAbsent12();
    forall i | 0 <= i < 13
      ensures Contains(TextC, ProductKeywords[i]) <==> i in {}
    {
      assert i in {0, 1, 2, 3, 4, 5, 6, 7, 8, 9, 10, 11, 12};
    }
  }

  lemma CProductKeywordsHitsHigh()
    ensures forall i :: 13 <= i < |ProductKeywords| ==> (Contains(TextC, ProductKeywords[i]) <==> i in {})
  {
    KeywordCounts();
    CProductKeywordsAbsent13();
    CProductKeywordsAbsent14();
    CProductKeywordsAbsent15();
    CProductKeywordsAbsent16();
    CProductKeywordsAbsent17();
    CProductKeywordsAbsent18();
    CProductKeywordsAbsent19();
    CProductKeywordsAbsent20();
    CProductKeywordsAbsent21();
    CProductKeywordsAbsent22();
    CProductKeywordsAbsent23();
    CProductKeywordsAbsent24();
    CProductKeywordsAbsent25();
    forall i | 13 <= i < |ProductKeywords|
      ensures Contains(TextC, ProductKeywords[i]) <==> i in {}
    {
      assert i in {13, 14, 15, 16, 17, 18, 19, 20, 21, 22, 23, 24, 25};
    }
  }

  /** No entry of the list occurs. */
  lemma CProductKeywordsHits()
    ensures forall i :: 0 <= i < |ProductKeywords| ==> (Contains(TextC, ProductKeywords[i]) <==> i in {})
  {
    CProductKeywordsHitsLow();
    CProductKeywordsHitsHigh();
  }

  /** A text that begins with neither whitespace nor a slash is no command. */
  lemma NotACommand(text: string)
    requires |text| > 0 && text[0] != '/' && !IsSpace(text[0])
    ensures !IsStartCommand(text)
  {
    assert StripLeading(text) == text;
    if |text| >= |StartCommand| {
      assert text[..|StartCommand|][0] == text[0];
    }
  }

  /** A list scores the number of its entries that occur. */
  lemma ScoreFromHits(keywords: seq<string>, text: string, hits: set<int>)
    requires forall i :: 0 <= i < |keywords| ==> (Contains(text, keywords[i]) <==> i in hits)
    requires forall i :: i in hits ==> 0 <= i < |keywords|
    ensures Score(keywords, text) == |hits|
  {
    ScoreCountsEntries(keywords, text);
    assert (set i | 0 <= i < |keywords| && Contains(text, keywords[i])) == hits;
  }

  lemma ClassifyA()
    ensures Classify(TextA) == Classification(2, 0, Chosen(AI))
  {
    LowerA();
    AScores();
  }

  lemma AScores()
    ensures Score(AiKeywords, TextA) == 2 && Score(ProductKeywords, TextA) == 0
  {
    AAiScore();
    AProductScore();
  }

  lemma AAiScore()
    ensures Score(AiKeywords, TextA) == 2
  {
    KeywordCounts();
    AAiKeywordsHits();
    assert |{9, 18}| == 2;
    ScoreFromHits(AiKeywords, TextA, {9, 18});
  }

  lemma AProductScore()
    ensures Score(ProductKeywords, TextA) == 0
  {
    KeywordCounts();
    AProductKeywordsHits();
    ScoreFromHits(ProductKeywords, TextA, {});
  }

  lemma ClassifyB()
    ensures Classify(TextB) == Classification(0, 3, Chosen(Product))
  {
    LowerB();
    BScores();
  }

  lemma BScores()
    ensures Score(AiKeywords, LoweredB) == 0 && Score(ProductKeywords, LoweredB) == 3
  {
    BAiScore();
    BProductScore();
  }

  lemma BAiScore()
    ensures Score(AiKeywords, LoweredB) == 0
  {
    KeywordCounts();
    BAiKeywordsHits();
    ScoreFromHits(AiKeywords, LoweredB, {});
  }

  lemma BProductScore()
    ensures Score(ProductKeywords, LoweredB) == 3
  {
    KeywordCounts();
    BProductKeywordsHits();
    assert |{6, 18, 22}| == 3;
    ScoreFromHits(ProductKeywords, LoweredB, {6, 18, 22});
  }

  /** "я изучал python, pandas и нейросети": two AI keywords (python,
      pandas), no product keyword, so the AI track; the context then holds
      only `chosen_plan = "ai"`. */
  lemma ScenarioAiBackground(d: map<string, string>, plans: Plans)
    ensures Classify(TextA) == Classification(2, 0, Chosen(AI))
    ensures Handle(State(AwaitingBackground, d), Message(TextA), plans).state ==
            State(Idle, map[ChosenPlanKey := "ai"])
  {
    ClassifyA();
    NotACommand(TextA);
    ClassifiedCommitsTrack(State(AwaitingBackground, d), TextA, plans, AI);
  }

  /** "работал с Tableau, делал A/B тесты и считал conversion": after
      lower-casing three product keywords (tableau, a/b, conversion) and no
      AI keyword, so the product track. */
  lemma ScenarioProductBackground(d: map<string, string>, plans: Plans)
    ensures Classify(TextB) == Classification(0, 3, Chosen(Product))
    ensures Handle(State(AwaitingBackground, d), Message(TextB), plans).state ==
            State(Idle, map[ChosenPlanKey := "product"])
  {
    ClassifyB();
    NotACommand(TextB);
    ClassifiedCommitsTrack(State(AwaitingBackground, d), TextB, plans, Product);
  }

  /** "люблю котов": no keyword at all, 0 to 0, and the conversation stays
      exactly where it was, still awaiting a background. */
  lemma ScenarioUndeterminedBackground(d: map<string, string>, plans: Plans)
    ensures Classify(TextC) == Classification(0, 0, Undetermined)
    ensures Handle(State(AwaitingBackground, d), Message(TextC), plans) ==
            Outcome(State(AwaitingBackground, d), AskMoreDetail)
  {
    LowerC();
    CAiKeywordsHits();
    CProductKeywordsHits();
    NotACommand(TextC);
    UndeterminedKeepsState(State(AwaitingBackground, d), TextC, plans);
  }

  /** One mandatory and one elective course in semester 1 split into the
      two lists of the semester-1 listing. */
  lemma ScenarioSemesterListing(credits1: int, credits2: int)
    ensures var math := Course("Математика", MandatoryTag, credits1, 1);
            var nlp := Course("NLP основы", ElectiveTag, credits2, 1);
            CoursesBySemester([math, nlp], 1) == Listing([math], [nlp])
  {
    var math := Course("Математика", MandatoryTag, credits1, 1);
    var nlp := Course("NLP основы", ElectiveTag, credits2, 1);
    assert MandatoryTag != ElectiveTag by {
      assert MandatoryTag[0] != ElectiveTag[0];
    }
    assert [math, nlp][1..] == [nlp];
  }

  /** Pressing "sem_1" before any plan was recorded lists semester 1 of the
      AI plan: the missing `chosen_plan` reads as "ai". */
  lemma ScenarioNoPlanRecorded(plans: Plans)
    ensures Handle(Fresh, Press("sem_1"), plans) ==
            Outcome(Fresh, CourseList(1, CoursesBySemester(plans.ai, 1), [ShowSemestersData("ai"), Begin]))
  {
    assert SemData(1) == "sem_1";
    CoursesFollowChosenPlan(Fresh, 1, plans);
  }
}

=== FILE: text.dfy ===
/** The string primitives the bot relies on from Python: substring tests
    (`kw in text`), `str.lower`, `str.startswith`, `str.split("_")`,
    `int(...)` and `str(n)`. */
module Text {
  import opened Basics

  /** `sub` occurs in `s` starting at position `i`. */
  predicate OccursAt(s: string, sub: string, i: int)
  {
    0 <= i && i + |sub| <= |s| && s[i..i + |sub|] == sub
  }

  /** Python's `sub in s`: true when `sub` occurs anywhere in `s`, and true
      for the empty `sub`. */
  predicate Contains(s: string, sub: string)
  {
    exists i | 0 <= i <= |s| :: OccursAt(s, sub, i)
  }

  predicate StartsWith(s: string, prefix: string)
  {
    |prefix| <= |s| && s[..|prefix|] == prefix
  }

  /** A witness position, given character by character. */
  lemma OccursAtByChars(s: string, sub: string, i: nat)
    requires i + |sub| <= |s|
    requires forall k :: 0 <= k < |sub| ==> s[i + k] == sub[k]
    ensures Contains(s, sub)
  {
    assert OccursAt(s, sub, i);
  }

  /** A string with a character that `s` lacks cannot occur in `s`. */
  lemma ForeignCharExcludes(s: string, sub: string, j: nat)
    requires j < |sub| && sub[j] !in s
    ensures !Contains(s, sub)
  {
    forall i | 0 <= i <= |s|
      ensures !OccursAt(s, sub, i)
    {
      if i + |sub| <= |s| {
        assert s[i..i + |sub|][j] == s[i + j];
      }
    }
  }

  /** One differing character rules out an occurrence at `p`. */
  lemma MismatchExcludes(s: string, sub: string, p: int, j: int)
    requires 0 <= p && p + |sub| <= |s| && 0 <= j < |sub| && s[p + j] != sub[j]
    ensures !OccursAt(s, sub, p)
  {
    assert s[p..p + |sub|][j] == s[p + j];
  }

  // ----- whitespace -----

  /** Python's `str.isspace` on one character: the ASCII whitespace
      `\t \n \x0b \x0c \r` and space, the separators `\x1c`..`\x1f`, and
      the Unicode spaces and line/paragraph separators. */
  predicate IsSpace(c: char)
  {
    c == ' ' || ('\t' <= c <= '\r') || ('\U{001C}' <= c <= '\U{001F}')
    || c == '\U{0085}' || c == '\U{00A0}' || c == '\U{1680}' || ('\U{2000}' <= c <= '\U{200A}')
    || c == '\U{2028}' || c == '\U{2029}' || c == '\U{202F}' || c == '\U{205F}' || c == '\U{3000}'
  }

  /** `s.lstrip()`: the suffix of `s` left after its leading whitespace. */
  function StripLeading(s: string): (r: string)
    ensures |r| <= |s| && r == s[|s| - |r|..]
    ensures forall i :: 0 <= i < |s| - |r| ==> IsSpace(s[i])
    ensures |r| > 0 ==> !IsSpace(r[0])
    decreases |s|
  {
    if |s| > 0 && IsSpace(s[0]) then StripLeading(s[1..]) else s
  }

  /** Leading whitespace is dropped up to the first non-space character. */
  lemma {:induction false} StripLeadingSkips(ws: string, rest: string)
    requires forall i :: 0 <= i < |ws| ==> IsSpace(ws[i])
    requires |rest| > 0 ==> !IsSpace(rest[0])
    ensures StripLeading(ws + rest) == rest
    decreases |ws|
  {
    if |ws| > 0 {
      assert (ws + rest)[1..] == ws[1..] + rest;
      StripLeadingSkips(ws[1..], rest);
    } else {
      assert ws + rest == rest;
    }
  }

  // ----- str.lower -----

  /** The upper-case letters `str.lower` maps in this model: basic Latin,
      basic Cyrillic (А..Я) and the Cyrillic letters Ѐ..Џ (including Ё). */
  predicate IsUpper(c: char)
  {
    ('A' <= c <= 'Z') || ('\U{0410}' <= c <= '\U{042F}') || ('\U{0400}' <= c <= '\U{040F}')
  }

  function LowerChar(c: char): (r: char)
    ensures !IsUpper(r)
    ensures !IsUpper(c) ==> r == c
  {
    if 'A' <= c <= 'Z' then (c as int + 32) as char
    else if '\U{0410}' <= c <= '\U{042F}' then (c as int + 32) as char
    else if '\U{0400}' <= c <= '\U{040F}' then (c as int + 80) as char
    else c
  }

  /** `s.lower()`, character by character. */
  function Lower(s: string): (r: string)
  {
    seq(|s|, i requires 0 <= i < |s| => LowerChar(s[i]))
  }

  predicate IsLower(s: string)
  {
    forall i :: 0 <= i < |s| ==> !IsUpper(s[i])
  }

  /** Lower-casing keeps the length, leaves no upper-case letter, and is
      the identity on text that has none. */
  lemma LowerShape(s: string)
    ensures |Lower(s)| == |s|
    ensures IsLower(Lower(s))
    ensures IsLower(s) ==> Lower(s) == s
  {
  }

  lemma LowerIdempotent(s: string)
    ensures Lower(Lower(s)) == Lower(s)
  {
    LowerShape(s);
    LowerShape(Lower(s));
  }

  /** Lower-casing maps every occurrence of `sub` in `s` to an occurrence
      of the lower-cased `sub`: matching after `lower()` never loses a hit. */
  lemma LowerKeepsOccurrence(s: string, sub: string, i: int)
    requires OccursAt(s, sub, i)
    ensures OccursAt(Lower(s), Lower(sub), i)
  {
    assert Lower(s)[i..i + |sub|] == Lower(s[i..i + |sub|]);
  }

  // ----- str.split and its inverse -----

  /** `s.split(sep)`: the maximal runs between separators; never empty. */
  function Split(s: string, sep: char): (parts: seq<string>)
    ensures |parts| >= 1
    ensures forall i :: 0 <= i < |parts| ==> sep !in parts[i]
    decreases |s|
  {
    if |s| == 0 then [""]
    else
      var rest := Split(s[1..], sep);
      if s[0] == sep then [""] + rest
      else [[s[0]] + rest[0]] + rest[1..]
  }

  /** `sep.join(parts)`. */
  function Join(parts: seq<string>, sep: char): string
    requires |parts| >= 1
    decreases |parts|
  {
    if |parts| == 1 then parts[0] else parts[0] + [sep] + Join(parts[1..], sep)
  }

  function Last<T>(s: seq<T>): T
    requires |s| > 0
  {
    s[|s| - 1]
  }

  /** Prefixing a character to the first piece prefixes it to the join. */
  lemma JoinExtendsFirst(c: char, parts: seq<string>, sep: char)
    requires |parts| >= 1
    ensures Join([[c] + parts[0]] + parts[1..], sep) == [c] + Join(parts, sep)
  {
    var longer := [[c] + parts[0]] + parts[1..];
    if |parts| > 1 {
      assert longer[1..] == parts[1..];
    }
  }

  /** Joining the pieces of a split gives back the original string. */
  lemma {:induction false} JoinSplit(s: string, sep: char)
    ensures Join(Split(s, sep), sep) == s
    decreases |s|
  {
    if |s| > 0 {
      var rest := Split(s[1..], sep);
      JoinSplit(s[1..], sep);
      if s[0] == sep {
        assert ([""] + rest)[1..] == rest;
      } else {
        JoinExtendsFirst(s[0], rest, sep);
      }
      assert s == [s[0]] + s[1..];
    }
  }

  /** A separator-free string is a single piece. */
  lemma {:induction false} SplitWithoutSeparator(s: string, sep: char)
    requires sep !in s
    ensures Split(s, sep) == [s]
    decreases |s|
  {
    if |s| > 0 {
      assert sep !in s[1..];
      SplitWithoutSeparator(s[1..], sep);
      assert s == [s[0]] + s[1..];
    }
  }

  /** A separator-free first piece followed by the separator splits off. */
  lemma {:induction false} SplitAfterPiece(piece: string, sep: char, tail: string)
    requires sep !in piece
    ensures Split(piece + [sep] + tail, sep) == [piece] + Split(tail, sep)
    decreases |piece|
  {
    var s := piece + [sep] + tail;
    if |piece| == 0 {
      assert s == [sep] + tail;
      assert s[1..] == tail;
    } else {
      assert s[1..] == piece[1..] + [sep] + tail;
      assert sep !in piece[1..];
      SplitAfterPiece(piece[1..], sep, tail);
      assert piece == [piece[0]] + piece[1..];
    }
  }

  /** Splitting a join of separator-free pieces gives back the pieces. */
  lemma {:induction false} SplitJoin(parts: seq<string>, sep: char)
    requires |parts| >= 1
    requires forall i :: 0 <= i < |parts| ==> sep !in parts[i]
    ensures Split(Join(parts, sep), sep) == parts
    decreases |parts|
  {
    if |parts| == 1 {
      SplitWithoutSeparator(parts[0], sep);
    } else {
      SplitJoin(parts[1..], sep);
      SplitAfterPiece(parts[0], sep, Join(parts[1..], sep));
      assert parts == [parts[0]] + parts[1..];
    }
  }

  // ----- str(n) and int(s) -----

  predicate IsDigit(c: char)
  {
    '0' <= c <= '9'
  }

  predicate AllDigits(s: string)
  {
    forall i :: 0 <= i < |s| ==> IsDigit(s[i])
  }

  function DigitChar(d: nat): (c: char)
    requires d < 10
    ensures IsDigit(c)
  {
    ('0' as int + d) as char
  }

  function DigitValue(c: char): nat
    requires IsDigit(c)
  {
    c as int - '0' as int
  }

  /** `str(n)` for a non-negative integer: decimal digits, no sign. */
  function NatToString(n: nat): (s: string)
    ensures |s| >= 1 && AllDigits(s)
    decreases n
  {
    if n < 10 then [DigitChar(n)] else NatToString(n / 10) + [DigitChar(n % 10)]
  }

  /** The value of a non-empty run of decimal digits, most significant first. */
  function DigitsValue(s: string): nat
    requires |s| >= 1 && AllDigits(s)
    decreases |s|
  {
    if |s| == 1 then DigitValue(s[0])
    else 10 * DigitsValue(s[..|s| - 1]) + DigitValue(s[|s| - 1])
  }

  /** Python's `int(s)` where the text is an optional sign followed by
      ASCII digits; `None` for every other text. */
  function ParseInt(s: string): Option<int>
  {
    if |s| >= 2 && s[0] == '-' && AllDigits(s[1..]) then Some(-(DigitsValue(s[1..]) as int))
    else if |s| >= 2 && s[0] == '+' && AllDigits(s[1..]) then Some(DigitsValue(s[1..]))
    else if |s| >= 1 && AllDigits(s) then Some(DigitsValue(s))
    else None
  }

  lemma {:induction false} DigitsOfNat(n: nat)
    ensures DigitsValue(NatToString(n)) == n
    decreases n
  {
    if n >= 10 {
      var s := NatToString(n);
      assert s[..|s| - 1] == NatToString(n / 10);
      DigitsOfNat(n / 10);
    }
  }

  /** `int(str(n)) == n`. */
  lemma ParseIntNatToString(n: nat)
    ensures ParseInt(NatToString(n)) == Some(n)
  {
    DigitsOfNat(n);
  }
}
